=== FILE: README.md ===
# itineris study dashboard — a Dafny model

This project models the logic core of the itineris student web app. Its centre is the
dashboard's study timer and the two stores the timer feeds:

- **The study ledger:** minutes studied per day, grouped by week.
- **The session counter:** completed focus sessions per day.

The timer's surroundings are modelled too:

- the Monday-based week keys;
- loading both stores from storage;
- the "current week exists" step;
- the streak badge.

It also models the small list operations of three other pages:

- **to-do list:** agenda view, add, complete, delete, rename, drag-reorder and completed count;
- **study tips:** tag list and filter;
- **onboarding:** subject toggle.

Modules, one file each:

- `Seqs` (seqs.dfy): `filter`, `findIndex` and `splice` over sequences, plus subsequence facts.
- `Text` (text.dfy):
  - `trim` and `includes`;
  - the code-unit string order;
  - decimal printing and `padStart`.
- `Dates` (dates.dfy):
  - day numbers and the weekday;
  - the Monday of a week and the index of a day in its week;
  - the week's dates;
  - the proleptic Gregorian calendar;
  - the `YYYY-MM-DD` keys, proved injective.
- `JsValue` (json.dfy): the parsed values read from storage and JavaScript's `Number(...)` on them.
- `WeekArray` (weekarray.dfy): today's week as the JavaScript array holds it, with holes and `undefined`, and its `reduce` total.
- `Ledger` (ledger.dfy):
  - the study ledger and its reads;
  - the per-tick banking step and the week total;
  - the "current week exists" step;
  - load-time sanitising.
- `Sessions` (sessions.dfy): the session counter, the session-completion step and load-time sanitising.
- `Streak` (streak.dfy): the streak walk, as a loop and as a specification, with monotonicity.
- `Timer` (timer.dfy):
  - the timer state and its buttons;
  - the once-a-second tick over timer, ledger and counter;
  - the invariant every reachable state keeps.
- `Tasks` (tasks.dfy): the to-do list operations.
- `Agenda` (agenda.dfy): the tasks of a day, timed tasks first in time order, sorted stably.
- `Tips` (tips.dfy): the tip list, the deduplicated sorted tag list and the tag/search filter.
- `Subjects` (subjects.dfy): the subject check-list toggle.

Days are integers counted from 1970-01-01. The current time `now` (milliseconds) and the
current day `today` are parameters of every step that reads the clock. JavaScript's
`Number` on strings and `toLowerCase` are parameters too.

## Model

| member | source | states |
|---|---|---|
| Dates.Weekday | src/pages/TableauDeBord.tsx:31 | `getDay()` of a day is in 0..6 (0 = Sunday) |
| Dates.WeekdayMatchesCalendar | src/pages/TableauDeBord.tsx:29-31 | day 0 is 1970-01-01, a Thursday, and the weekday count puts 6 May 2024 on a Monday |
| Dates.MondayShift | src/pages/TableauDeBord.tsx:32 | the shift to the week's Monday is -6 on Sunday and `1 - getDay()` otherwise, between -6 and 0 |
| Dates.MondayOf | src/pages/TableauDeBord.tsx:29-34 | the week's start is a Monday, at most six days before the day |
| Dates.DayIndex | src/pages/TableauDeBord.tsx:366 | the index (Sunday 6, otherwise `getDay() - 1`) is in 0..6 and is the distance from the week's Monday |
| Dates.SameWeek | src/pages/TableauDeBord.tsx:357-360 | two days share a Monday exactly when the second lies in the seven days the first's Monday starts |
| Dates.DayIndexInjectiveInWeek | src/pages/TableauDeBord.tsx:357-366 | within one week the day index tells the days apart |
| Dates.CurrentWeekDates | src/pages/TableauDeBord.tsx:29-42 | seven consecutive days starting on a Monday, shifted by exactly seven days per offset week; today sits at its day index |
| Dates.CivilRoundTrip | src/pages/TableauDeBord.tsx:44-49 | the calendar date a day is printed from converts back to that day |
| Dates.EraRoundTrip | src/pages/TableauDeBord.tsx:44-49 | within one 400-year era, the calendar date computed for a day converts back to that day |
| Dates.DaysFromCivilShift | src/pages/TableauDeBord.tsx:44-49 | moving a date by 400 years moves its day number by 146097 days, the length of a Gregorian era |
| Dates.DateStringInjective | src/pages/TableauDeBord.tsx:44-49 | distinct calendar dates print as distinct `year-MM-DD` texts |
| Dates.FormatDateInjective | src/pages/TableauDeBord.tsx:44-49 | `formatDate` gives distinct days distinct keys |
| Dates.FormatDate | src/pages/TableauDeBord.tsx:44-49 | no contract of its own. It is injective by `Dates.FormatDateInjective`, built on `Dates.CivilRoundTrip` and `Dates.DateStringInjective`; no key is `__proto__` by `Ledger.WeekKeyNotProto` |
| Dates.WeekKeySame | src/pages/TableauDeBord.tsx:357-362 | two days have the same week key exactly when they share a Monday |
| Dates.WeekKey | src/pages/TableauDeBord.tsx:357-362 | no contract of its own. Equal keys mean the same Monday by `Dates.WeekKeySame`, and `currentWeekStart` is this key of today by `Dates.CurrentWeekStart` |
| Dates.CurrentWeekStart | src/pages/TableauDeBord.tsx:106 | `currentWeekStart` is the week key of today |
| Dates.TodayIndexIsDayIndex | src/pages/TableauDeBord.tsx:266-268 | the tick's `findIndex` of today in the current week always succeeds, at today's day index |
| Dates.SameCell | src/pages/TableauDeBord.tsx:362-366 | the week key and the day index together determine the day |
| Text.Trim | src/pages/Todo.tsx:146-151 | `trim()` gives a substring with no white space at either end, bordered in the input by white space only; it is empty exactly when the input is blank |
| Text.TrimIdempotent | src/pages/Todo.tsx:150 | trimming a trimmed text changes nothing |
| Text.NatToString | src/pages/TableauDeBord.tsx:46-48 | `String(n)` for a natural number is a non-empty run of digits with no leading zero |
| Text.ParseNatToString | src/pages/TableauDeBord.tsx:46-48 | reading the printed digits back gives the number |
| Text.NatToStringInjective | src/pages/TableauDeBord.tsx:46-48 | distinct numbers print differently |
| Text.ContainsAt | src/pages/Conseils.tsx:18 | `includes` holds exactly when the needle occurs at some position |
| Text.LexLeTotal | src/pages/Todo.tsx:138 | the time-string order compares any two strings |
| Text.LexLeTransitive | src/pages/Todo.tsx:138 | the time-string order is transitive |
| Text.LexLeAntisymmetric | src/pages/Todo.tsx:138 | strings ordered both ways are equal |
| Text.IntToStringInjective | src/pages/TableauDeBord.tsx:46-48 | `String(year)` prints distinct years differently |
| Text.PadStart2 | src/pages/TableauDeBord.tsx:46-47 | `padStart(2, '0')` ends with the text and pads it with zeros to at least two characters |
| Text.TwoDigits | src/pages/TableauDeBord.tsx:46-47 | `String(n).padStart(2, '0')` for n < 100 is two characters that read back as n |
| Seqs.Filter | src/pages/Todo.tsx:178 | `filter` keeps exactly the elements that pass, and only elements of the input |
| Seqs.FilterSubsequence | src/pages/Todo.tsx:178 | what `filter` keeps is an order-preserving subsequence and a sub-multiset of the input |
| Seqs.FilterAppend | src/pages/Todo.tsx:178 | filtering a concatenation filters each part |
| Seqs.FindIndex | src/pages/Todo.tsx:210-211 | `findIndex` is -1 when no element passes; otherwise it is an index that passes with none before it passing |
| Seqs.RemoveAt | src/pages/Todo.tsx:214 | `splice(i, 1)` drops exactly the element at i and shifts the rest down |
| Seqs.InsertAt | src/pages/Todo.tsx:215 | `splice(i, 0, x)` puts x at i and shifts the rest up |
| Seqs.InsertRemoved | src/pages/Todo.tsx:214-215 | inserting the removed element back where it was restores the sequence |
| Seqs.RemoveInserted | src/pages/Todo.tsx:214-215 | removing an element just inserted restores the sequence |
| Ledger.SetCell | src/pages/TableauDeBord.tsx:275 | writing cell i changes that cell only; writing past the end pads with cells that read as 0 |
| Ledger.CellAfterSet | src/pages/TableauDeBord.tsx:275 | after a write, the written cell reads the new value and every other cell reads as before |
| Ledger.SumUpdate | src/pages/TableauDeBord.tsx:233 | replacing one cell changes the week total by the difference |
| Ledger.AddAt | src/pages/TableauDeBord.tsx:272-277 | only the chosen cell of the chosen week grows, by the amount; the week is created as seven zeros if absent; other weeks stay identical |
| Ledger.AddToCellSum | src/pages/TableauDeBord.tsx:233 | adding x to one cell adds x to the week total |
| Ledger.WeekTotal | src/pages/TableauDeBord.tsx:233 | no contract of its own. How banking changes it is stated by `Ledger.AddToCellSum`, `Ledger.SumUpdate`, `Ledger.AddAt` and `Ledger.Bank`. It is the intended total, which the source misses on short stored weeks (see Findings) |
| Ledger.Bank | src/pages/TableauDeBord.tsx:266-279 | a focus tick adds `deltaSec/60` to today's cell of the current week and to the week total; it adds the current week if missing and leaves all other weeks and cells unchanged |
| WeekArray.FromWeek | src/pages/TableauDeBord.tsx:233 | a week of numbers becomes an array of the same length holding those numbers |
| WeekArray.Spread | src/pages/TableauDeBord.tsx:273 | `[...a]` keeps the length and every element, except that a hole becomes `undefined` |
| WeekArray.Readings | src/pages/TableauDeBord.tsx:275 | the day-by-day reading of an array, where anything but a number reads as 0 |
| WeekArray.Store | src/pages/TableauDeBord.tsx:275 | `a[i] = v` puts v at i and keeps the other elements. A write past the end leaves holes up to i |
| WeekArray.ReduceMeaning | src/pages/TableauDeBord.tsx:233 | the `reduce` total is NaN exactly when some element is `undefined`; otherwise it is the sum of the day readings |
| WeekArray.BankWeekReads | src/pages/TableauDeBord.tsx:273-275 | read by day, the tick's update of the stored array adds x to cell idx and changes no other day, whatever the array holds |
| WeekArray.BankWeekAgrees | src/pages/TableauDeBord.tsx:233-275 | on a week of numbers reaching cell idx, the tick's update is the ledger's `SetCell` and the `reduce` total is the ledger's sum |
| WeekArray.ShortWeekTotalIsNaN | src/pages/TableauDeBord.tsx:233-275 | a stored empty week and two ticks at a cell after Monday give a NaN week total, although the days read x + y in all |
| WeekArray.ShortWeekTotalCorrected | src/pages/TableauDeBord.tsx:266-279 | in the ledger model the same stored empty week and two one-minute ticks give a week total of 2, on any day |
| Ledger.BankDays | src/pages/TableauDeBord.tsx:266-279 | read by day, banking adds `deltaSec/60` to today, every other day reads as before, and no day decreases |
| Ledger.BankTwiceScenario | src/pages/TableauDeBord.tsx:270-278 | 30 then 15 minutes banked in a new week read back as 45 minutes and a week total of 45 |
| Ledger.EnsureCurrentWeek | src/pages/TableauDeBord.tsx:312-330 | the current week is present afterwards; it is added as seven zeros only when absent, never overwritten, and no day's reading changes |
| Ledger.EnsureCurrentWeekIdempotent | src/pages/TableauDeBord.tsx:312-330 | ensuring the current week twice is ensuring it once |
| Ledger.CleanWeek | src/pages/TableauDeBord.tsx:203-205 | a stored week keeps its length; number cells are kept and every other cell reads as 0 |
| Ledger.LoadLedger | src/pages/TableauDeBord.tsx:191-216 | a non-object, or a legacy object on whose `minutes` `Number` throws, gives only the current week of zeros. Otherwise the legacy shape gives one week with the minutes on Monday, and other objects keep exactly their array-valued weeks, cleaned, except a `__proto__` entry, which the assignment does not create |
| Ledger.LedgerRoundTrip | src/pages/TableauDeBord.tsx:191-216 | a ledger saved as JSON loads back unchanged, except an entry under `__proto__`, which is dropped |
| Ledger.LoadedMinutes | src/pages/TableauDeBord.tsx:353-369 | after loading, a day reads the number stored in its cell, and 0 when its week is missing or not an array, or its cell is missing or not a number |
| Ledger.MinutesOn | src/pages/TableauDeBord.tsx:353-369 | no contract of its own. `getMinutesForDate` on a loaded ledger is stated by `Ledger.LoadedMinutes`; its change under banking by `Ledger.BankDays` and `Ledger.Bank` |
| Ledger.WeekKeyNotProto | src/pages/TableauDeBord.tsx:362 | no week key is `__proto__`, so the dropped entry never hides a week a day reads |
| Sessions.RecordSession | src/pages/TableauDeBord.tsx:247-250 | a completed focus session adds one to today's count and changes no other day |
| Sessions.CleanCounts | src/pages/TableauDeBord.tsx:170-174 | exactly the entries whose `Number(v)` is a number and at least 0 are kept, with that number, except one under `__proto__`, which the assignment does not create |
| Sessions.LoadSessions | src/pages/TableauDeBord.tsx:161-190 | an object with surviving entries and no throwing conversion gives exactly those entries. Rejected text holding a count gives that count for today. Everything else gives `{today: 0}`, including an object where some `Number(v)` throws. The result is never empty and never negative |
| Sessions.ThrowingEntryDropsAll | src/pages/TableauDeBord.tsx:170-183 | a stored day count next to an object entry with its own `toString` is lost: the load gives `{today: 0}` |
| Sessions.ProtoEntryDropped | src/pages/TableauDeBord.tsx:170-176 | a count stored only under `__proto__` is not kept, so today starts at 0 |
| Sessions.ParsedNonObjectGivesZero | src/pages/TableauDeBord.tsx:165-183 | a stored value that parses but is not an object (a bare number included) gives `{today: 0}`, not the `Number(raw)` fallback |
| Sessions.CounterRoundTrip | src/pages/TableauDeBord.tsx:161-190 | a counter of non-negative counts saved as JSON loads back unchanged, less a `__proto__` entry; with nothing else in it, it loads as `{today: 0}` |
| Streak.Run | src/pages/TableauDeBord.tsx:377-390 | a run of studied days stays within the 365-day horizon, every day in it is studied, and it stops at an unstudied day or the horizon |
| Streak.ComputeStreak | src/pages/TableauDeBord.tsx:371-392 | the loop's streak is at most 365 and equals the run from today, or from yesterday when today is empty |
| Streak.RunStopsAt | src/pages/TableauDeBord.tsx:377-390 | a run studied up to an unstudied day (or the horizon) has exactly that length |
| Streak.TwoDayStreak | src/pages/TableauDeBord.tsx:371-392 | today empty, the two days before studied and the third empty gives 2 |
| Streak.TenDayStreak | src/pages/TableauDeBord.tsx:371-392 | ten studied days up to today give at least 10, and exactly 10 when the eleventh is empty |
| Streak.RunMonotone | src/pages/TableauDeBord.tsx:377-390 | more minutes on every day never shorten a run |
| Streak.StreakMonotone | src/pages/TableauDeBord.tsx:371-392 | more minutes on every day never lower the streak |
| Streak.BankNeverLowersStreak | src/pages/TableauDeBord.tsx:266-279 | banking study time never lowers the streak shown |
| Timer.SafeMinutes | src/pages/TableauDeBord.tsx:230 | `Math.max(5, timerMinutes \|\| 5)` is at least 5, and is the duration itself from 5 up |
| Timer.DefaultMinutes | src/pages/TableauDeBord.tsx:96-100 | every mode's default duration lies in the editor's bounds, 5 to 120 minutes; the per-mode values are stated by `Timer.SwitchMode` |
| Timer.InitialValid | src/pages/TableauDeBord.tsx:155-159 | the first-render state (focus, 25 minutes, stopped) satisfies the timer invariant |
| Timer.ToggleRunning | src/pages/TableauDeBord.tsx:688-695 | start/pause flips running; starting records `now`, pausing clears the tick; nothing else changes and the invariant is kept |
| Timer.StartThenPause | src/pages/TableauDeBord.tsx:688-695 | starting and then pausing a stopped timer restores it |
| Timer.Reset | src/pages/TableauDeBord.tsx:712-715 | reset stops the timer and refills `safeMinutes * 60` seconds; the duration and mode stay |
| Timer.ResetIdempotent | src/pages/TableauDeBord.tsx:712-715 | resetting twice is resetting once |
| Timer.SwitchMode | src/pages/TableauDeBord.tsx:604-612 | a mode button stops the timer and closes the editor. It takes that mode's `TIMER_MODES` duration (focus 25, short break 5, long break 15 minutes) with a full time left, and the invariant holds |
| Timer.SwitchModeForgets | src/pages/TableauDeBord.tsx:604-612 | after a mode switch, the previous state does not matter |
| Timer.BeginEdit | src/pages/TableauDeBord.tsx:669-673 | clicking the time display stops the timer and opens the editor; the duration and time left stay |
| Timer.CancelEdit | src/pages/TableauDeBord.tsx:656-659 | Escape closes the editor without changing the duration, the time left or running |
| Timer.Clamp | src/pages/TableauDeBord.tsx:397 | the clamp lies in [5, 120], keeps values inside, and maps values below to 5 and above to 120 |
| Timer.CommitEdit | src/pages/TableauDeBord.tsx:394-402 | a finite entry becomes the clamped duration with a full time left; any other entry changes neither; the editor closes either way |
| Timer.CommitNaNKeepsDuration | src/pages/TableauDeBord.tsx:394-402 | an entry converting to NaN leaves the duration and time left as they were |
| Timer.CommitClamps | src/pages/TableauDeBord.tsx:397-399 | entering 200 gives 120 minutes (7200 s), entering 2 gives 5 minutes (300 s) |
| Timer.TickDelta | src/pages/TableauDeBord.tsx:239-241 | the elapsed whole seconds are at least 1; they are the floor of the elapsed milliseconds over 1000 when at least one second passed, and 1 with no previous tick |
| Timer.Tick | src/pages/TableauDeBord.tsx:238-281 | no contract of its own. Its behaviour is stated by `Timer.TickTimer` (the timer), `Timer.TickSessions` (the counter), `Timer.TickStudyMinutes` (the ledger, read by day) and `Timer.TickPreserves` (invariant and monotonicity) |
| Timer.TickTimer | src/pages/TableauDeBord.tsx:243-264 | the timer keeps running exactly when more than delta seconds were left. While running, the time left drops by exactly delta and the tick time becomes `now`. Once stopped, it holds the full `safeMinutes * 60` and no tick time. Mode, duration and editor state are untouched, and the invariant is kept |
| Timer.TickSessions | src/pages/TableauDeBord.tsx:244-251 | a completing focus tick adds one session today and changes no other day; every other tick leaves the counter unchanged |
| Timer.TickStudyMinutes | src/pages/TableauDeBord.tsx:266-279 | a focus tick, completing or not, adds delta/60 minutes to today and changes no other day; a break tick changes no day |
| Timer.SevenSecondTick | src/pages/TableauDeBord.tsx:239-263 | 7.5 s after the last tick, 100 s left become 93 s and the timer keeps running |
| Timer.FocusSessionCompletes | src/pages/TableauDeBord.tsx:244-261 | a 5-minute focus session whose last second ticks away stops, refills 300 s and counts one more session today |
| Timer.CompletingTickBanksWholeDelta | src/pages/TableauDeBord.tsx:266-279 | a completing tick with 3 s left after 10 s banks all 10 s |
| Timer.Step | src/pages/TableauDeBord.tsx:238-715 | the buttons (mode switch :604-612, Escape :656-659, editing :669-673, start/pause :688-695, reset :712-715) never touch the ledger or the counter; a tick (:238-281) while stopped changes nothing |
| Timer.TickPreserves | src/pages/TableauDeBord.tsx:238-281 | a tick keeps the timer invariant and never lowers a day's minutes or session count |
| Timer.StepPreserves | src/pages/TableauDeBord.tsx:238-281 | every action keeps the timer invariant and never lowers a day's minutes or session count |
| Timer.RunPreserves | src/pages/TableauDeBord.tsx:238-281 | after any sequence of actions the invariant holds, and minutes and session counts have only grown |
| Tasks.Optional | src/pages/Todo.tsx:155-156 | `value \|\| undefined` is absent exactly for the empty string and otherwise holds the value |
| Tasks.AddTask | src/pages/Todo.tsx:145-159 | a blank name adds nothing. Otherwise exactly one new task is appended and the old list is its prefix. The new task is not completed and has the trimmed name and description, and the form's colour and priority. Its date and time are the form's values, absent when left empty |
| Tasks.AddThenDelete | src/pages/Todo.tsx:145-179 | adding a task under an id no task has and then deleting that id gives the list back |
| Tasks.ToggleTask | src/pages/Todo.tsx:171-175 | the completion of the tasks with that id flips; every other field and every other task stays, in order |
| Tasks.ToggleTwice | src/pages/Todo.tsx:171-175 | toggling the same id twice restores the list |
| Tasks.CompletedCount | src/pages/Todo.tsx:226-227 | the completed count is at most the number of tasks |
| Tasks.CompletedCountBounds | src/pages/Todo.tsx:227 | the count is the list length exactly when all tasks are done, and 0 exactly when none is |
| Tasks.ToggleCompletedCount | src/pages/Todo.tsx:171-175 | toggling changes the completed count by the open tasks with that id minus the done ones |
| Tasks.DeleteTask | src/pages/Todo.tsx:177-179 | no task with the id remains, every other task does, in the original order |
| Tasks.DeleteAbsent | src/pages/Todo.tsx:177-179 | deleting an id no task has changes nothing |
| Tasks.DeleteCount | src/pages/Todo.tsx:177-179 | exactly the tasks with the id are removed: the length drops by their number |
| Tasks.SaveEditingTask | src/pages/Todo.tsx:186-194 | only the names of the edited tasks change, to the trimmed text, and only for a non-empty id and a non-blank text; the edit state is cleared either way |
| Tasks.SaveBlankKeepsTasks | src/pages/Todo.tsx:186-194 | saving a blank text leaves the list unchanged |
| Tasks.SpliceIndex | src/pages/Todo.tsx:214-215 | `splice` starts at the index itself when it is in range and at the last position for -1 |
| Tasks.Move | src/pages/Todo.tsx:213-215 | remove-then-insert puts the moved element at the target, keeps the others in order, and is a permutation |
| Tasks.MoveBack | src/pages/Todo.tsx:213-215 | moving an element back to where it came from restores the list |
| Tasks.Reorder | src/pages/Todo.tsx:206-218 | no change when nothing is dragged or the target is the dragged task. Otherwise the result is a permutation of the same length; when both ids are found, the dragged task lands at the target's index and the others keep their order |
| Tasks.ReorderIsMove | src/pages/Todo.tsx:206-218 | with both ids found, the reorder is the move between their indices |
| Tasks.MoveForward | src/pages/Todo.tsx:213-215 | a forward move shifts the tasks in between back by one |
| Tasks.MoveBackward | src/pages/Todo.tsx:213-215 | a backward move shifts the tasks in between forward by one |
| Tasks.MoveToEnd | src/pages/Todo.tsx:213-215 | moving the first element to the last index rotates it to the end |
| Tasks.MoveToFront | src/pages/Todo.tsx:213-215 | moving the last element to index 0 rotates it to the front |
| Tasks.ReorderFirstToLast | src/pages/Todo.tsx:206-218 | dragging the first task over the last moves it to the end |
| Tasks.ReorderLastToFront | src/pages/Todo.tsx:206-218 | dragging the last task over the first moves it to the front |
| Tasks.FindIndexAt | src/pages/Todo.tsx:210-211 | `findIndex` is the first index that passes |
| Agenda.LeTotal | src/pages/Todo.tsx:137-142 | the agenda comparator relates any two tasks |
| Agenda.LeTransitive | src/pages/Todo.tsx:137-142 | the agenda comparator is transitive |
| Agenda.LeBothWays | src/pages/Todo.tsx:137-142 | two tasks compare equal exactly when they have the same time, or are both untimed |
| Agenda.Insert | src/pages/Todo.tsx:137 | insertion adds the element once to the multiset |
| Agenda.InsertSorted | src/pages/Todo.tsx:137-142 | insertion keeps a sorted list sorted |
| Agenda.InsertStable | src/pages/Todo.tsx:137-142 | the inserted task goes before the tasks that compare equal to it |
| Agenda.Sort | src/pages/Todo.tsx:137-142 | the sort is a permutation and its result is sorted |
| Agenda.SortStable | src/pages/Todo.tsx:137-142 | tasks that compare equal keep their relative order |
| Agenda.TasksForDate | src/pages/Todo.tsx:134-143 | the result holds exactly the day's tasks, as often as the list holds them |
| Agenda.TasksForDateOrder | src/pages/Todo.tsx:134-143 | timed tasks come before untimed ones, and timed tasks are in non-decreasing time order |
| Agenda.TasksForDateStable | src/pages/Todo.tsx:134-143 | tasks with the same time (or both untimed) keep their list order |
| Tips.AllTagsOf | src/pages/Conseils.tsx:15 | `flatMap` holds exactly the tags some tip carries |
| Tips.LexLessTransitive | src/pages/Conseils.tsx:15 | the strict string order is transitive |
| Tips.LexLessTotal | src/pages/Conseils.tsx:15 | two distinct strings are strictly ordered one way or the other |
| Tips.InsertUnique | src/pages/Conseils.tsx:15 | adding an element yields exactly the old elements plus it |
| Tips.InsertUniqueSorted | src/pages/Conseils.tsx:15 | adding an element keeps a strictly sorted list strictly sorted |
| Tips.SortedUnique | src/pages/Conseils.tsx:15 | `Array.from(new Set(xs)).sort()` has exactly the elements of xs, strictly ascending |
| Tips.Tags | src/pages/Conseils.tsx:15 | the tag list holds exactly the tips' tags, strictly ascending, without duplicates |
| Tips.StrictlySortedUnique | src/pages/Conseils.tsx:15 | two strictly sorted lists with the same elements are equal, so the tag list is determined |
| Tips.ChainLess | src/pages/Conseils.tsx:15 | a list ordered between neighbours is ordered between every pair |
| Tips.PageTagsSorted | src/pages/Conseils.tsx:15 | the six tags of the page in selector order are strictly ascending |
| Tips.AllTipsCarryPageTags | src/pages/Conseils.tsx:4-9 | the four tips carry exactly those six tags |
| Tips.TagsOfAllTips | src/pages/Conseils.tsx:4-15 | the selector offers mémoire, méta-apprentissage, notes, pomodoro, science, temps, in that order |
| Tips.Visible | src/pages/Conseils.tsx:16-19 | a tip is shown exactly when it is a tip that has the tag (or no tag is chosen) and its lowercased text contains the lowercased query (or the query is empty); the shown tips keep their order |
| Tips.ResetShowsAll | src/pages/Conseils.tsx:36 | after "Réinitialiser" every tip is shown, in order |
| Tips.TagOnly | src/pages/Conseils.tsx:16-19 | with no query the shown tips are exactly those carrying the tag |
| Tips.TagNarrows | src/pages/Conseils.tsx:16-19 | choosing a tag never shows a tip the same query without a tag hides |
| Subjects.Toggle | src/pages/Onboarding.tsx:19-20 | an absent item is appended, leaving the rest unchanged. A present item is removed entirely, keeping the others in order. The item's membership flips and every other item's stays |
| Subjects.ToggleRemovesAll | src/pages/Onboarding.tsx:19-20 | removing drops every occurrence and nothing else: the length falls by the item's count |
| Subjects.RemovedCount | src/pages/Onboarding.tsx:20 | filtering out an item shortens the list by its number of occurrences |
| Subjects.ToggleTwiceAbsent | src/pages/Onboarding.tsx:19-20 | toggling an absent item twice restores the list |
| Subjects.ToggleTwicePresent | src/pages/Onboarding.tsx:19-20 | unticking and re-ticking a present item moves it to the end |

## Findings

| source | as written | input that shows it | evidently intended | confidence | as-written member | corrected member |
|---|---|---|---|---|---|---|
| src/pages/TableauDeBord.tsx:233-275 | The tick copies today's week with a spread and writes today's cell. When the stored week is shorter than today's index, the write leaves holes. The next tick's spread turns them into `undefined`, and the week total's `reduce` adds `undefined`, giving NaN | storage holds `{"<this Monday>": []}`, then two focus ticks on a Wednesday | missing cells count as 0 in the week total, as every per-day read already does | high; not executed | WeekArray.ShortWeekTotalIsNaN | WeekArray.ShortWeekTotalCorrected |

The ledger model (`Ledger.Bank`, `Ledger.AddAt`, `Ledger.WeekTotal`) is the corrected behaviour, and the rest of the model uses it. `WeekArray` models the array as the source holds it. It proves that the two agree on every day's reading (`WeekArray.BankWeekReads`), and on the week total whenever the week reaches today's cell (`WeekArray.BankWeekAgrees`). A week the dashboard creates always has seven cells.

## Left out

- **I/O and scheduling:** `localStorage` reads and writes, `JSON.parse`/`JSON.stringify` on text, `setInterval` scheduling, React effects and state batching. Each tick is one atomic step of `Timer.Tick`, and `Date.now()` and the current day are parameters.
- **Storage values:** a stored value is abstracted as `JsValue.Stored`: absent, a parsed JSON value, or text the parser rejects.
- **Time zones and daylight saving:** not modelled. A day is a whole local calendar day and `new Date()` is the parameter `today`.
- **UTF-16:** strings are sequences of characters, so code units and surrogate pairs are not distinguished.
- Agenda.Le: `localeCompare` is modelled as code-unit lexicographic order. The locale's collation is not modelled, and the two agree on the `hh:mm` times the form produces.
- Tips.Visible: `toLowerCase` is the parameter `lower`. Unicode case folding is not modelled.
- **`Number` on strings:** JavaScript's `Number` on strings is the parameter `strToNum`. Decimal parsing is not modelled.
- Ledger.LegacyMinutes: `Number(minutes) || 0` keeps an infinite legacy value in the source; the model has no infinite minutes and stores 0.
- Sessions.IsCount: `Number(v) >= 0` also admits `Infinity` in the source; the model drops infinite counts. This is why the counter holds reals (fractional counts survive loading) rather than naturals.
- Ledger.LoadLedger: a numeral too large for a double (`1e400`) parses as `Infinity`, which the source keeps as a cell. The model's parsed numbers are reals, so such a stored ledger is not representable.
- Ledger.CleanWeek: an infinite cell, kept by the source's number test, is not representable, for the same reason.
- Sessions.CleanCounts: an infinite numeral, or a string `Number` reads as `Infinity`, is kept by the source as a count. The model has no infinite counts and drops it, as under `Sessions.IsCount`.
- Sessions.LoadSessions: inherits the infinite-count gap of `Sessions.CleanCounts`. The `__proto__` key and throwing conversions are modelled.
- Ledger.Bank: the week-total clause states the corrected total. The source shows NaN from the second tick into a stored week too short to reach today's cell (see Findings; modelled by `WeekArray`).
- Ledger.AddAt: the clause `Sum(r[key]) == WeekTotal(ledger, key) + x` is the corrected total, for the same reason.
- Ledger.AddToCellSum: states the corrected total. The source's `reduce` is NaN once a spread has copied a hole as `undefined`.
- Ledger.WeekTotal: never NaN. The source's total is NaN in the case above.
- **Numbers:** JavaScript numbers are IEEE 754 doubles; the model computes with exact reals. This drops the rounding of `deltaSec / 60` (TableauDeBord.tsx:275), of `safeMinutes * 60` and `minutes * 60` (:261, :399, :610), and of the week sums (:233). A fractional duration such as 7.3 minutes can therefore make the completing tick come one second apart from the model at a whole-second boundary.
- Ledger.EnsureCurrentWeek: the source re-reads storage here. The model uses the in-memory ledger, which the save step has just written. The stored-text branches (absent, not an object) are therefore not modelled.
- Tasks.Reorder: requires a non-empty list, because the drag handler only fires on a rendered task. A missing dragged id splices at -1, the last task, as in the source.
- Tasks.AddTask: the id is the parameter `id` (`Date.now().toString()` in the source). Resetting the form fields and closing the dialog are not modelled.
- **Dashboard's own task dialog:** the duplicates of the to-do operations in the dashboard (`saveTask`, `resetTaskForm`, its task list) are not modelled. Its `getTasksForDate` is the same as the to-do page's and is covered by `Agenda.TasksForDate`.
- **Timer display and side effects:** the editor's text buffer (`editingTimerValue`) is reduced to the converted number passed to `Timer.CommitEdit`. The audio alarm, `document.title`, the progress ring, `formatTime` and the other display arithmetic are not modelled.
- **Streak persistence and refresh:** the streak's write to storage and its one-minute refresh timer are not modelled. `Streak.ComputeStreak` computes the value shown.
- **Dates before 1970:** days are unbounded integers, and the calendar is proleptic Gregorian for every day. JavaScript's `Date` range limit (±8.64e15 ms) is not modelled.
- **Other pages:** login, settings, welcome, error and navigation have no logic of their own beyond storage and routing, and are not part of this model.

=== FILE: agenda.dfy ===
/** The agenda view of the to-do list (`getTasksForDate`): the tasks of one day,
    timed tasks first in time order, untimed tasks after them. The source sorts
    with `Array.prototype.sort`, which is stable; the model sorts by stable
    insertion and proves the result sorted, a permutation, and stable. */
module Agenda {
  import opened Seqs
  import opened Text
  import opened Tasks

  /** `task.time` is truthy: present and not empty. */
  predicate HasTime(t: Task)
  {
    t.time.Some? && t.time.value != ""
  }

  /** The sort key: the time when there is one. Tasks compare equal exactly when their
      keys are equal. */
  function TimeKey(t: Task): Option<string>
  {
    if HasTime(t) then Some(t.time.value) else None
  }

  /** The comparator returns at most 0: both timed and `a.time.localeCompare(b.time) <= 0`,
      or `a` timed and `b` not, or both untimed. */
  predicate Le(a: Task, b: Task)
  {
    if HasTime(a) && HasTime(b) then LexLe(a.time.value, b.time.value)
    else HasTime(a) || !HasTime(b)
  }

  lemma LeTotal(a: Task, b: Task)
    ensures Le(a, b) || Le(b, a)
  {
    if HasTime(a) && HasTime(b) {
      LexLeTotal(a.time.value, b.time.value);
    }
  }

  lemma LeTransitive(a: Task, b: Task, c: Task)
    requires Le(a, b) && Le(b, c)
    ensures Le(a, c)
  {
    if HasTime(a) && HasTime(b) && HasTime(c) {
      LexLeTransitive(a.time.value, b.time.value, c.time.value);
    }
  }

  /** Tasks compare equal exactly when their sort keys are equal. */
  lemma LeBothWays(a: Task, b: Task)
    ensures Le(a, b) && Le(b, a) <==> TimeKey(a) == TimeKey(b)
  {
    if HasTime(a) && HasTime(b) {
      if Le(a, b) && Le(b, a) {
        LexLeAntisymmetric(a.time.value, b.time.value);
      }
      if a.time.value == b.time.value {
        LexLeTotal(a.time.value, a.time.value);
      }
    }
  }

  predicate Sorted(s: seq<Task>)
  {
    forall i, j :: 0 <= i < j < |s| ==> Le(s[i], s[j])
  }

  /** The tasks with sort key `k`. */
  function HasKey(k: Option<string>): Task -> bool
  {
    (t: Task) => TimeKey(t) == k
  }

  /** Inserts `x` before the first element it compares at most equal to. */
  function Insert(x: Task, s: seq<Task>): (r: seq<Task>)
    ensures multiset(r) == multiset{x} + multiset(s)
    ensures |r| == |s| + 1
  {
    if s == [] then [x]
    else if Le(x, s[0]) then [x] + s
    else
      assert s == [s[0]] + s[1..];
      [s[0]] + Insert(x, s[1..])
  }

  lemma {:induction false} InsertSorted(x: Task, s: seq<Task>)
    requires Sorted(s)
    ensures Sorted(Insert(x, s))
  {
    if s == [] {
    } else if Le(x, s[0]) {
      var r := [x] + s;
      forall i, j | 0 <= i < j < |r|
        ensures Le(r[i], r[j])
      {
        if i == 0 && j > 1 {
          LeTransitive(x, s[0], s[j - 1]);
        }
      }
    } else {
      LeTotal(x, s[0]);
      var tail := Insert(x, s[1..]);
      InsertSorted(x, s[1..]);
      forall k | 0 <= k < |tail|
        ensures Le(s[0], tail[k])
      {
        assert tail[k] in multiset(tail);
        if tail[k] != x {
          assert tail[k] in multiset(s[1..]);
          var m :| 0 <= m < |s[1..]| && s[1..][m] == tail[k];
          assert s[m + 1] == tail[k];
        }
      }
      var r := [s[0]] + tail;
      forall i, j | 0 <= i < j < |r|
        ensures Le(r[i], r[j])
      {
        if i == 0 {
          assert r[j] == tail[j - 1];
        } else {
          assert r[i] == tail[i - 1] && r[j] == tail[j - 1];
        }
      }
    }
  }

  /** Within one key, `x` goes before every element already there. */
  lemma {:induction false} InsertStable(x: Task, s: seq<Task>, k: Option<string>)
    ensures Filter(HasKey(k), Insert(x, s)) == (if TimeKey(x) == k then [x] else []) + Filter(HasKey(k), s)
  {
    var r := Insert(x, s);
    if s == [] {
      assert r == [x];
      assert r[1..] == [];
    } else if Le(x, s[0]) {
      assert r[0] == x && r[1..] == s;
    } else {
      LeBothWays(x, s[0]);
      LeTotal(x, s[0]);
      assert TimeKey(s[0]) != TimeKey(x);
      InsertStable(x, s[1..], k);
      assert r[0] == s[0] && r[1..] == Insert(x, s[1..]);
    }
  }

  /** Stable insertion sort under the agenda's comparator. */
  function Sort(xs: seq<Task>): (r: seq<Task>)
    ensures multiset(r) == multiset(xs)
    ensures Sorted(r)
  {
    if xs == [] then []
    else
      var rest := Sort(xs[1..]);
      InsertSorted(xs[0], rest);
      assert xs == [xs[0]] + xs[1..];
      Insert(xs[0], rest)
  }

  /** Sorting keeps the order of tasks with equal keys. */
  lemma {:induction false} SortStable(xs: seq<Task>, k: Option<string>)
    ensures Filter(HasKey(k), Sort(xs)) == Filter(HasKey(k), xs)
  {
    if xs != [] {
      SortStable(xs[1..], k);
      InsertStable(xs[0], Sort(xs[1..]), k);
    }
  }

  /** `task.date === date`. */
  function OnDate(date: string): Task -> bool
  {
    (t: Task) => t.date == Some(date)
  }

  /** `getTasksForDate(date)`: exactly the tasks of that day, each as often as in the list. */
  function TasksForDate(tasks: seq<Task>, date: string): (r: seq<Task>)
    ensures forall i :: 0 <= i < |r| ==> r[i].date == Some(date)
    ensures multiset(r) == multiset(Filter(OnDate(date), tasks))
    ensures forall i :: 0 <= i < |tasks| && tasks[i].date == Some(date) ==> tasks[i] in r
  {
    var onDay := Filter(OnDate(date), tasks);
    var r := Sort(onDay);
    forall i | 0 <= i < |r|
      ensures r[i].date == Some(date)
    {
      assert r[i] in multiset(onDay);
    }
    forall i | 0 <= i < |tasks| && tasks[i].date == Some(date)
      ensures tasks[i] in r
    {
      assert tasks[i] in multiset(onDay);
    }
    r
  }

  /** The day's tasks are ordered: timed tasks before untimed ones, timed tasks by time. */
  lemma TasksForDateOrder(tasks: seq<Task>, date: string)
    ensures var r := TasksForDate(tasks, date);
      && (forall i, j :: 0 <= i < j < |r| && HasTime(r[j]) ==> HasTime(r[i]))
      && (forall i, j :: 0 <= i < j < |r| && HasTime(r[i]) && HasTime(r[j]) ==> LexLe(r[i].time.value, r[j].time.value))
  {
    assert Sorted(TasksForDate(tasks, date));
  }

  /** Tasks that compare equal (the same time, or both untimed) keep their list order. */
  lemma TasksForDateStable(tasks: seq<Task>, date: string, k: Option<string>)
    ensures Filter(HasKey(k), TasksForDate(tasks, date)) == Filter(HasKey(k), Filter(OnDate(date), tasks))
  {
    SortStable(Filter(OnDate(date), tasks), k);
  }
}

=== FILE: dates.dfy ===
/** Date keying of the dashboard: days as integers, the Monday-based week,
    the day index inside a week, and the `YYYY-MM-DD` keys under which study
    minutes and sessions are stored. Time zones and daylight saving are not
    modelled: a day is a whole local calendar day. */
module Dates {
  import opened Seqs
  import Text

  /** A local calendar day, counted from 1970-01-01 (a Thursday). */
  type Day = int

  /** `date.getDay()`: 0 for Sunday up to 6 for Saturday. */
  function Weekday(d: Day): (wd: int)
    ensures 0 <= wd <= 6
  {
    (d + 4) % 7
  }

  /** The `diff` the source adds to reach the Monday that starts the week. */
  function MondayShift(d: Day): (diff: int)
    ensures -6 <= diff <= 0
  {
    if Weekday(d) == 0 then -6 else 1 - Weekday(d)
  }

  /** The Monday that starts the week of `d`. */
  function MondayOf(d: Day): (m: Day)
    ensures Weekday(m) == 1
    ensures m <= d < m + 7
  {
    d + MondayShift(d)
  }

  /** Position of `d` in its week, Monday = 0 .. Sunday = 6. */
  function DayIndex(d: Day): (i: int)
    ensures 0 <= i <= 6
    ensures MondayOf(d) + i == d
  {
    if Weekday(d) == 0 then 6 else Weekday(d) - 1
  }

  /** Two days share their Monday exactly when the second lies in the week the first's Monday starts. */
  lemma SameWeek(d: Day, e: Day)
    ensures MondayOf(d) == MondayOf(e) <==> MondayOf(d) <= e < MondayOf(d) + 7
  {
    var m, n := MondayOf(d), MondayOf(e);
    assert (m + 4) % 7 == 1 && (n + 4) % 7 == 1;
  }

  /** Within one week, the day index tells the days apart. */
  lemma DayIndexInjectiveInWeek(d: Day, e: Day)
    requires MondayOf(d) == MondayOf(e)
    requires DayIndex(d) == DayIndex(e)
    ensures d == e
  {
  }

  /** `getCurrentWeekDates(offsetWeeks)` evaluated on day `today`: the seven days
      of the week `offsetWeeks` weeks away from the current one, Monday first. */
  function CurrentWeekDates(today: Day, offsetWeeks: int): (dates: seq<Day>)
    ensures |dates| == 7
    ensures dates[0] == MondayOf(today) + 7 * offsetWeeks
    ensures Weekday(dates[0]) == 1
    ensures forall i :: 0 <= i < 7 ==> dates[i] == dates[0] + i
    ensures dates[DayIndex(today)] == today + 7 * offsetWeeks
  {
    var monday := today + MondayShift(today) + offsetWeeks * 7;
    seq(7, i => monday + i)
  }

  /** A proleptic Gregorian calendar date. */
  datatype Civil = Civil(year: int, month: int, day: int)

  /** The bounds behind the year-of-era formula, for a day in century `b` of the era other
      than the era's last day. */
  lemma CenturyBounds(doe: int, a: int, b: int, yoe: int, q4: int, q100: int)
    requires 0 <= b <= 3 && 36524 * b <= doe < 36524 * b + 36524
    requires 1460 * a <= doe < 1460 * a + 1460
    requires 365 * yoe <= doe - a + b < 365 * yoe + 365
    requires 4 * q4 <= yoe < 4 * q4 + 4
    requires 100 * q100 <= yoe < 100 * q100 + 100
    ensures 0 <= yoe <= 399
    ensures 0 <= doe - 365 * yoe - q4 + q100 <= 365
  {
    assert q100 == b;
  }

  /** The year-of-era formula (`doe - doe/1460 + doe/36524 - doe/146096`, over 365) gives a
      year of the era and a day of that year. */
  lemma EraBounds(doe: int, a: int, b: int, c: int, yoe: int, q4: int, q100: int)
    requires 0 <= doe <= 146096
    requires 1460 * a <= doe < 1460 * a + 1460
    requires 36524 * b <= doe < 36524 * b + 36524
    requires 146096 * c <= doe < 146096 * c + 146096
    requires 365 * yoe <= doe - a + b - c < 365 * yoe + 365
    requires 4 * q4 <= yoe < 4 * q4 + 4
    requires 100 * q100 <= yoe < 100 * q100 + 100
    ensures 0 <= yoe <= 399
    ensures 0 <= doe - 365 * yoe - q4 + q100 <= 365
  {
    if c == 1 {
      assert doe == 146096 && a == 100 && b == 4;
      assert yoe == 399;
    } else {
      CenturyBounds(doe, a, b, yoe, q4, q100);
    }
  }

  /** Days of an era (starting 0000-03-01) before its year `yoe`: a leap day every fourth
      year except every hundredth. */
  function DaysBeforeYear(yoe: int): int
  {
    365 * yoe + yoe / 4 - yoe / 100
  }

  /** Year within a 400-year era for a day of that era: the day lies in that year. */
  function YearOfEra(doe: int): (yoe: int)
    requires 0 <= doe <= 146096
    ensures 0 <= yoe <= 399
    ensures 0 <= doe - DaysBeforeYear(yoe) <= 365
  {
    var yoe := (doe - doe / 1460 + doe / 36524 - doe / 146096) / 365;
    EraBounds(doe, doe / 1460, doe / 36524, doe / 146096, yoe, yoe / 4, yoe / 100);
    yoe
  }

  /** The month formula on a day of a March-based year (`doy` from 0 to 365): a month
      index 0..11 (March first) and a day of month 1..31. */
  lemma MonthBounds(doy: int)
    requires 0 <= doy <= 365
    ensures var mp := (5 * doy + 2) / 153;
      && 0 <= mp <= 11
      && 1 <= doy - (153 * mp + 2) / 5 + 1 <= 31
  {
  }

  /** The calendar date of day `doy` (0 = March 1st) of year `yoe` of the era. January and
      February belong to the next calendar year. */
  function YearDayDate(yoe: int, doy: int): (c: Civil)
    requires 0 <= doy <= 365
    ensures 1 <= c.month <= 12 && 1 <= c.day <= 31
  {
    MonthBounds(doy);
    var mp := (5 * doy + 2) / 153;
    var d := doy - (153 * mp + 2) / 5 + 1;
    var m := if mp < 10 then mp + 3 else mp - 9;
    Civil(yoe + (if m <= 2 then 1 else 0), m, d)
  }

  /** The calendar date of day `doe` of an era. */
  function EraDate(doe: int): (c: Civil)
    requires 0 <= doe < 146097
    ensures 1 <= c.month <= 12 && 1 <= c.day <= 31
  {
    var yoe := YearOfEra(doe);
    YearDayDate(yoe, doe - DaysBeforeYear(yoe))
  }

  /** `getFullYear()`, `getMonth() + 1` and `getDate()` of a day. The Gregorian
      calendar repeats every 400 years, which are 146097 days. */
  function CivilFromDays(z: Day): (c: Civil)
    ensures 1 <= c.month <= 12 && 1 <= c.day <= 31
    decreases if z < -719468 then -z else z + 719468
  {
    if z < -719468 then
      var c := CivilFromDays(z + 146097);
      Civil(c.year - 400, c.month, c.day)
    else if z >= 146097 - 719468 then
      var c := CivilFromDays(z - 146097);
      Civil(c.year + 400, c.month, c.day)
    else
      EraDate(z + 719468)
  }

  /** The day a calendar date denotes. */
  function DaysFromCivil(c: Civil): Day
  {
    var y := c.year - (if c.month <= 2 then 1 else 0);
    var era := y / 400;
    var yoe := y - era * 400;
    var mp := if c.month > 2 then c.month - 3 else c.month + 9;
    var doy := (153 * mp + 2) / 5 + c.day - 1;
    era * 146097 + DaysBeforeYear(yoe) + doy - 719468
  }

  /** Day `doy` of year `yoe` of the era, as a calendar date, denotes the day the era
      counts for it. */
  lemma YearDayRoundTrip(yoe: int, doy: int)
    requires 0 <= yoe <= 399 && 0 <= doy <= 365
    ensures DaysFromCivil(YearDayDate(yoe, doy)) == DaysBeforeYear(yoe) + doy - 719468
  {
    MonthBounds(doy);
    var mp := (5 * doy + 2) / 153;
    var c := YearDayDate(yoe, doy);
    var y := c.year - (if c.month <= 2 then 1 else 0);
    assert y == yoe;
    assert y / 400 == 0;
    assert (if c.month > 2 then c.month - 3 else c.month + 9) == mp;
  }

  lemma EraRoundTrip(doe: int)
    requires 0 <= doe < 146097
    ensures DaysFromCivil(EraDate(doe)) == doe - 719468
  {
    var yoe := YearOfEra(doe);
    var doy := doe - DaysBeforeYear(yoe);
    assert EraDate(doe) == YearDayDate(yoe, doy);
    YearDayRoundTrip(yoe, doy);
  }

  /** Moving a date 400 years moves its day by 146097. */
  lemma DaysFromCivilShift(c: Civil, shifted: Civil, k: int)
    requires shifted == Civil(c.year + 400 * k, c.month, c.day)
    ensures DaysFromCivil(shifted) == DaysFromCivil(c) + 146097 * k
  {
    var y := c.year - (if c.month <= 2 then 1 else 0);
    assert (y + 400 * k) / 400 == y / 400 + k;
  }

  /** Converting a day to its calendar date and back gives the same day. */
  lemma {:induction false} CivilRoundTrip(z: Day)
    ensures DaysFromCivil(CivilFromDays(z)) == z
    decreases if z < -719468 then -z else z + 719468
  {
    if z < -719468 {
      var c := CivilFromDays(z + 146097);
      CivilRoundTrip(z + 146097);
      DaysFromCivilShift(c, CivilFromDays(z), -1);
    } else if z >= 146097 - 719468 {
      var c := CivilFromDays(z - 146097);
      CivilRoundTrip(z - 146097);
      DaysFromCivilShift(c, CivilFromDays(z), 1);
    } else {
      assert CivilFromDays(z) == EraDate(z + 719468);
      EraRoundTrip(z + 719468);
    }
  }

  /** Splitting `y-mm-dd` back into its three parts. */
  lemma SplitDateString(y1: string, m1: string, d1: string, y2: string, m2: string, d2: string)
    requires |m1| == |m2| == |d1| == |d2| == 2
    requires y1 + "-" + m1 + "-" + d1 == y2 + "-" + m2 + "-" + d2
    ensures y1 == y2 && m1 == m2 && d1 == d2
  {
    var k1, k2 := y1 + "-" + m1 + "-" + d1, y2 + "-" + m2 + "-" + d2;
    assert |y1| == |y2|;
    var n := |y1|;
    assert y1 == k1[..n] && y2 == k2[..n];
    assert m1 == k1[n + 1..n + 3] && m2 == k2[n + 1..n + 3];
    assert d1 == k1[n + 4..] && d2 == k2[n + 4..];
  }

  /** The text of a calendar date: `${year}-${month}-${day}`, month and day padded to two digits. */
  function DateString(c: Civil): string
    requires 1 <= c.month <= 12 && 1 <= c.day <= 31
  {
    Text.IntToString(c.year) + "-" + Text.TwoDigits(c.month) + "-" + Text.TwoDigits(c.day)
  }

  lemma DateStringInjective(a: Civil, b: Civil)
    requires 1 <= a.month <= 12 && 1 <= a.day <= 31
    requires 1 <= b.month <= 12 && 1 <= b.day <= 31
    requires DateString(a) == DateString(b)
    ensures a == b
  {
    SplitDateString(Text.IntToString(a.year), Text.TwoDigits(a.month), Text.TwoDigits(a.day),
                    Text.IntToString(b.year), Text.TwoDigits(b.month), Text.TwoDigits(b.day));
    Text.IntToStringInjective(a.year, b.year);
  }

  /** `formatDate(date)`: `YYYY-MM-DD`, the year unpadded as `String(getFullYear())` prints it. */
  function FormatDate(d: Day): string
  {
    DateString(CivilFromDays(d))
  }

  /** Distinct days have distinct keys, so a key names exactly one day. */
  lemma FormatDateInjective(a: Day, b: Day)
    requires FormatDate(a) == FormatDate(b)
    ensures a == b
  {
    DateStringInjective(CivilFromDays(a), CivilFromDays(b));
    CivilRoundTrip(a);
    CivilRoundTrip(b);
  }

  /** Key of the week containing `d`: the formatted date of its Monday. */
  function WeekKey(d: Day): string
  {
    FormatDate(MondayOf(d))
  }

  /** Day 0 is 1970-01-01, and the weekday count agrees with the calendar: 6 May 2024
      is a Monday. */
  lemma WeekdayMatchesCalendar()
    ensures DaysFromCivil(Civil(1970, 1, 1)) == 0
    ensures Weekday(DaysFromCivil(Civil(2024, 5, 6))) == 1
    ensures Weekday(0) == 4
  {
  }

  /** Two days have the same week key exactly when they share a Monday. */
  lemma WeekKeySame(d: Day, e: Day)
    ensures WeekKey(d) == WeekKey(e) <==> MondayOf(d) == MondayOf(e)
  {
    if WeekKey(d) == WeekKey(e) {
      FormatDateInjective(MondayOf(d), MondayOf(e));
    }
  }

  /** `currentWeekStart`: the formatted first date of the current week. */
  function CurrentWeekStart(today: Day): (key: string)
    ensures key == WeekKey(today)
  {
    FormatDate(CurrentWeekDates(today, 0)[0])
  }

  /** The index the timer tick computes for today: the position in the current
      week whose formatted date equals today's (`findIndex`, -1 if none). */
  function TodayIndex(today: Day): (i: int)
    ensures -1 <= i < 7
  {
    FindIndex((d: Day) => FormatDate(d) == FormatDate(today), CurrentWeekDates(today, 0))
  }

  /** The `findIndex` search always succeeds, at the day index of today. */
  lemma TodayIndexIsDayIndex(today: Day)
    ensures TodayIndex(today) == DayIndex(today)
  {
    var dates := CurrentWeekDates(today, 0);
    var i := TodayIndex(today);
    assert FormatDate(dates[DayIndex(today)]) == FormatDate(today);
    assert 0 <= i;
    FormatDateInjective(dates[i], today);
  }

  /** Two days with the same week key and the same day index are the same day. */
  lemma SameCell(d: Day, e: Day)
    requires WeekKey(d) == WeekKey(e) && DayIndex(d) == DayIndex(e)
    ensures d == e
  {
    WeekKeySame(d, e);
  }
}

=== FILE: json.dfy ===
/** The values the dashboard reads back from storage, after `JSON.parse`, and
    the JavaScript `Number(...)` conversion it applies to them. The storage
    text itself and the parser are not modelled: a stored item is either
    absent, a parsed value, or text the parser rejected. */
module JsValue {

  /** A JavaScript number as `Number(...)` can produce it. */
  datatype Num = NaN | Finite(r: real) | Infinity(negative: bool)

  /** A value `JSON.parse` returns. A numeral is held as a real: one too large for a
      double, which `JSON.parse` reads as an infinity, is not representable here. An
      object's duplicate keys have already been resolved (the last one wins). */
  datatype Json =
    | JNull
    | JBool(b: bool)
    | JNum(n: real)
    | JStr(s: string)
    | JArr(items: seq<Json>)
    | JObj(fields: map<string, Json>)

  /** A `localStorage` item: missing or empty, parsed, or text on which `JSON.parse` throws. */
  datatype Stored = Absent | Parsed(value: Json) | Unparseable(text: string)

  /** The one key whose assignment `obj[k] = v` on a plain object does not create an entry:
      it goes to the prototype setter instead. */
  const ProtoKey: string := "__proto__"

  /** `Number(v)` throws a `TypeError` for `v`. A parsed object converts through its
      `valueOf` and `toString`; an own `toString` member (never callable in parsed data)
      hides the inherited one and leaves no way to a primitive. An array converts through
      `join`, which converts every item to text the same way. */
  predicate Throws(v: Json)
  {
    match v
    case JObj(fields) => "toString" in fields
    case JArr(items) => exists i :: 0 <= i < |items| && Throws(items[i])
    case _ => false
  }

  /** `Number(v)` for a parsed value on which it does not throw, given `Number` on strings (`strToNum`).
      An array converts through its comma-joined text: `[]` is 0, two or more
      items always give a comma and so NaN, and one item converts as its own text. */
  function ToNumber(v: Json, strToNum: string -> Num): Num
  {
    match v
    case JNull => Finite(0.0)
    case JBool(b) => if b then Finite(1.0) else Finite(0.0)
    case JNum(n) => Finite(n)
    case JStr(s) => strToNum(s)
    case JObj(_) => NaN
    case JArr(items) =>
      if |items| == 0 then Finite(0.0)
      else if |items| >= 2 then NaN
      else
        match items[0]
        case JNull => Finite(0.0)
        case JBool(_) => NaN
        case JNum(n) => Finite(n)
        case JStr(s) => strToNum(s)
        case JObj(_) => NaN
        case JArr(_) => ToNumber(items[0], strToNum)
  }
}

=== FILE: ledger.dfy ===
/** The study ledger (`studyData`): for every week key, the minutes studied on
    each day of that week, Monday first. Reads, the per-tick banking step,
    the week total, the "current week exists" step and load-time sanitising. */
module Ledger {
  import opened Seqs
  import opened Dates
  import opened JsValue

  /** Minutes per day of one week, Monday first. Loaded weeks keep the length they
      were stored with, so a week may be shorter or longer than seven days. */
  type Week = seq<real>

  /** `studyData`: week key to the minutes of that week. */
  type StudyLedger = map<string, Week>

  /** The week created for a key that has none yet. */
  const ZeroWeek: Week := [0.0, 0.0, 0.0, 0.0, 0.0, 0.0, 0.0]

  /** `weekArray[i]` as the source reads it: a missing cell counts as 0. */
  function Cell(w: Week, i: nat): real
  {
    if i < |w| then w[i] else 0.0
  }

  /** `weekArray[i] = v`. Writing past the end leaves holes. The per-day reads of the
      source (`?? 0`, the `typeof` test, JSON's `null` on reload) take them as 0, so
      they are stored as zeros. The week total does not always: once a later spread
      copies a hole as `undefined`, its `reduce` is NaN. `WeekArray` models that. */
  function SetCell(w: Week, i: nat, v: real): (r: Week)
    ensures |r| == if i < |w| then |w| else i + 1
    ensures forall j :: 0 <= j < |r| ==> Cell(r, j) == if j == i then v else Cell(w, j)
  {
    if i < |w| then w[i := v] else w + seq(i - |w|, _ => 0.0) + [v]
  }

  /** Writing one cell changes the reading of that cell only. */
  lemma CellAfterSet(w: Week, i: nat, v: real, j: nat)
    ensures Cell(SetCell(w, i, v), j) == if j == i then v else Cell(w, j)
  {
  }

  /** Minutes recorded in cell `i` of week `key`, 0 when the week or the cell is absent. */
  function MinutesAt(ledger: StudyLedger, key: string, i: nat): real
  {
    if key in ledger then Cell(ledger[key], i) else 0.0
  }

  /** `getMinutesForDate(date, data)`: the cell of `d`'s day in `d`'s week. */
  function MinutesOn(ledger: StudyLedger, d: Day): real
  {
    MinutesAt(ledger, WeekKey(d), DayIndex(d))
  }

  /** `weekArray[idx] = (weekArray[idx] ?? 0) + x` on the week `key`, which starts as
      seven zeros when the ledger has none. */
  function AddAt(ledger: StudyLedger, key: string, idx: nat, x: real): (r: StudyLedger)
    ensures r.Keys == ledger.Keys + {key}
    ensures forall k :: k in ledger && k != key ==> r[k] == ledger[k]
    ensures forall k, i :: MinutesAt(r, k, i) == if k == key && i == idx then MinutesAt(ledger, k, i) + x else MinutesAt(ledger, k, i)
    ensures Sum(r[key]) == WeekTotal(ledger, key) + x
  {
    var week := if key in ledger then ledger[key] else ZeroWeek;
    AddToCellSum(week, idx, x);
    assert Sum(ZeroWeek) == 0.0;
    ledger[key := SetCell(week, idx, Cell(week, idx) + x)]
  }

  /** Sum of the minutes of a week (`reduce((sum, n) => sum + n, 0)`). */
  function Sum(w: Week): real
  {
    if w == [] then 0.0 else w[0] + Sum(w[1..])
  }

  lemma {:induction false} SumAppend(a: Week, b: Week)
    ensures Sum(a + b) == Sum(a) + Sum(b)
  {
    if a == [] {
      assert a + b == b;
    } else {
      assert (a + b)[0] == a[0];
      assert (a + b)[1..] == a[1..] + b;
      SumAppend(a[1..], b);
    }
  }

  lemma {:induction false} SumZeros(n: nat)
    ensures Sum(seq(n, _ => 0.0)) == 0.0
  {
    if n > 0 {
      assert seq(n, _ => 0.0)[1..] == seq(n - 1, _ => 0.0);
      SumZeros(n - 1);
    }
  }

  lemma {:induction false} SumUpdate(w: Week, i: nat, v: real)
    requires i < |w|
    ensures Sum(w[i := v]) == Sum(w) - w[i] + v
  {
    if i > 0 {
      assert w[i := v][1..] == w[1..][i - 1 := v];
      SumUpdate(w[1..], i - 1, v);
    }
  }

  /** Adding `x` to one cell adds `x` to the sum of the week. */
  lemma AddToCellSum(w: Week, i: nat, x: real)
    ensures Sum(SetCell(w, i, Cell(w, i) + x)) == Sum(w) + x
  {
    if i < |w| {
      SumUpdate(w, i, w[i] + x);
    } else {
      var z := seq(i - |w|, _ => 0.0);
      SumAppend(w + z, [x]);
      SumAppend(w, z);
      SumZeros(i - |w|);
      assert Sum([x]) == x + Sum([]);
    }
  }

  /** `weekTotal`: the total minutes of week `key`, 0 when the week is absent. */
  function WeekTotal(ledger: StudyLedger, key: string): real
  {
    if key in ledger then Sum(ledger[key]) else 0.0
  }

  /** The ledger step of a focus-mode timer tick: `deltaSec / 60` minutes are added to
      today's cell of the current week, the week being created as seven zeros when it is
      missing. The key is the formatted first date of the current week and the index is
      the `findIndex` of today among that week's dates, 0 if not found. */
  function Bank(ledger: StudyLedger, today: Day, deltaSec: int): (r: StudyLedger)
    requires deltaSec >= 1
    ensures r.Keys == ledger.Keys + {WeekKey(today)}
    ensures forall k :: k in ledger && k != WeekKey(today) ==> r[k] == ledger[k]
    ensures forall k, i ::
      MinutesAt(r, k, i) == MinutesAt(ledger, k, i) + (if k == WeekKey(today) && i == DayIndex(today) then deltaSec as real / 60.0 else 0.0)
    ensures WeekTotal(r, WeekKey(today)) == WeekTotal(ledger, WeekKey(today)) + deltaSec as real / 60.0
  {
    var found := TodayIndex(today);
    var idx := if found >= 0 then found else 0;
    TodayIndexIsDayIndex(today);
    AddAt(ledger, CurrentWeekStart(today), idx, deltaSec as real / 60.0)
  }

  /** Read by day, banking adds to today only: today gains `deltaSec / 60` minutes, every
      other day reads as before, and no day loses minutes. */
  lemma BankDays(ledger: StudyLedger, today: Day, deltaSec: int)
    requires deltaSec >= 1
    ensures MinutesOn(Bank(ledger, today, deltaSec), today) == MinutesOn(ledger, today) + deltaSec as real / 60.0
    ensures forall d :: d != today ==> MinutesOn(Bank(ledger, today, deltaSec), d) == MinutesOn(ledger, d)
    ensures forall d :: MinutesOn(ledger, d) <= MinutesOn(Bank(ledger, today, deltaSec), d)
  {
    var r := Bank(ledger, today, deltaSec);
    forall d | d != today
      ensures MinutesOn(r, d) == MinutesOn(ledger, d)
    {
      if WeekKey(d) == WeekKey(today) && DayIndex(d) == DayIndex(today) {
        SameCell(d, today);
      }
    }
  }

  /** 30 then 15 minutes banked on a day of an unseen week read back as 45,
      and make up the whole week's total. */
  lemma BankTwiceScenario(ledger: StudyLedger, day: Day)
    requires WeekKey(day) !in ledger
    ensures MinutesOn(Bank(Bank(ledger, day, 1800), day, 900), day) == 45.0
    ensures WeekTotal(Bank(Bank(ledger, day, 1800), day, 900), WeekKey(day)) == 45.0
  {
    var once := Bank(ledger, day, 1800);
    assert MinutesOn(once, day) == 30.0;
    assert WeekTotal(once, WeekKey(day)) == 30.0;
  }

  /** The "an entry exists for the current week" step: the current week's key gets a
      week of zeros unless it is already present, in which case nothing changes. The
      source re-reads storage here, which the save step that precedes it has just
      written from the in-memory ledger. */
  function EnsureCurrentWeek(ledger: StudyLedger, today: Day): (r: StudyLedger)
    ensures WeekKey(today) in r
    ensures WeekKey(today) in ledger ==> r == ledger
    ensures WeekKey(today) !in ledger ==> r == ledger[WeekKey(today) := ZeroWeek]
    ensures forall d :: MinutesOn(r, d) == MinutesOn(ledger, d)
  {
    var key := CurrentWeekStart(today);
    if key in ledger then ledger
    else
      var r := ledger[key := ZeroWeek];
      assert forall k, i :: MinutesAt(r, k, i) == MinutesAt(ledger, k, i);
      r
  }

  /** Ensuring the current week twice is ensuring it once. */
  lemma EnsureCurrentWeekIdempotent(ledger: StudyLedger, today: Day)
    ensures EnsureCurrentWeek(EnsureCurrentWeek(ledger, today), today) == EnsureCurrentWeek(ledger, today)
  {
  }

  /** The older stored shape `{weekStart, minutes}` (with a string `weekStart`). */
  predicate IsLegacy(fields: map<string, Json>)
  {
    "weekStart" in fields && "minutes" in fields && fields["weekStart"].JStr?
  }

  /** A stored week's cells: numbers are kept, anything else reads as 0. */
  function CleanWeek(items: seq<Json>): (w: Week)
    ensures |w| == |items|
    ensures forall i :: 0 <= i < |w| ==> w[i] == if items[i].JNum? then items[i].n else 0.0
  {
    seq(|items|, i requires 0 <= i < |items| => if items[i].JNum? then items[i].n else 0.0)
  }

  /** Loading `studyData`: a legacy object becomes one week holding its minutes on Monday
      (`Number(minutes) || 0`); any other object keeps exactly its array-valued entries,
      with non-number cells read as 0. The assignment `cleaned[k] = ...` creates no entry
      for the key `__proto__`. Anything else, and a legacy object whose `Number(minutes)`
      throws (the outer `catch`), gives the current week, all zeros. */
  function LoadLedger(stored: Stored, today: Day, strToNum: string -> Num): (r: StudyLedger)
    ensures !(stored.Parsed? && stored.value.JObj?) ==> r == map[WeekKey(today) := ZeroWeek]
    ensures stored.Parsed? && stored.value.JObj? && IsLegacy(stored.value.fields) && Throws(stored.value.fields["minutes"]) ==>
      r == map[WeekKey(today) := ZeroWeek]
    ensures stored.Parsed? && stored.value.JObj? && IsLegacy(stored.value.fields) && !Throws(stored.value.fields["minutes"]) ==>
      var ws := stored.value.fields["weekStart"].s;
      && r.Keys == {ws}
      && r[ws] == [LegacyMinutes(ToNumber(stored.value.fields["minutes"], strToNum)), 0.0, 0.0, 0.0, 0.0, 0.0, 0.0]
    ensures stored.Parsed? && stored.value.JObj? && !IsLegacy(stored.value.fields) ==>
      var fields := stored.value.fields;
      && (forall k :: k in r <==> k in fields && k != ProtoKey && fields[k].JArr?)
      && (forall k :: k in r ==> r[k] == CleanWeek(fields[k].items))
  {
    match stored
    case Parsed(JObj(fields)) =>
      if IsLegacy(fields) then
        if Throws(fields["minutes"]) then map[CurrentWeekStart(today) := ZeroWeek]
        else map[fields["weekStart"].s := [LegacyMinutes(ToNumber(fields["minutes"], strToNum)), 0.0, 0.0, 0.0, 0.0, 0.0, 0.0]]
      else
        map k | k in fields && k != ProtoKey && fields[k].JArr? :: CleanWeek(fields[k].items)
    case _ => map[CurrentWeekStart(today) := ZeroWeek]
  }

  /** `Number(minutes) || 0`. The model has no infinite minutes, so an infinite value also gives 0. */
  function LegacyMinutes(n: Num): real
  {
    if n.Finite? then n.r else 0.0
  }

  /** The JSON image `JSON.stringify` gives of a ledger. */
  function LedgerToJson(ledger: StudyLedger): Json
  {
    JObj(map k | k in ledger :: JArr(seq(|ledger[k]|, i requires 0 <= i < |ledger[k]| => JNum(ledger[k][i]))))
  }

  /** Saving a ledger and loading it back gives the same ledger, less an entry under
      `__proto__`, which no week key ever is. */
  lemma LedgerRoundTrip(ledger: StudyLedger, today: Day, strToNum: string -> Num)
    ensures LoadLedger(Parsed(LedgerToJson(ledger)), today, strToNum) == ledger - {ProtoKey}
  {
    var fields := LedgerToJson(ledger).fields;
    assert !IsLegacy(fields);
    var r := LoadLedger(Parsed(LedgerToJson(ledger)), today, strToNum);
    assert r.Keys == ledger.Keys - {ProtoKey};
    forall k | k in r
      ensures r[k] == ledger[k]
    {
      assert r[k] == CleanWeek(fields[k].items);
    }
  }

  /** A week key is a date text, which holds a `-`; `__proto__` holds none. */
  lemma WeekKeyNotProto(d: Day)
    ensures WeekKey(d) != ProtoKey
  {
    var c := CivilFromDays(MondayOf(d));
    var y := Text.IntToString(c.year);
    var key := WeekKey(d);
    assert key == y + "-" + Text.TwoDigits(c.month) + "-" + Text.TwoDigits(c.day);
    assert key[|y|] == '-';
  }

  /** After loading a (non-legacy) object, a day reads the number stored in its cell,
      and 0 when its week is missing or not an array, or its cell is missing or not a number. */
  lemma LoadedMinutes(fields: map<string, Json>, today: Day, strToNum: string -> Num, d: Day)
    requires !IsLegacy(fields)
    ensures var key, i := WeekKey(d), DayIndex(d);
      MinutesOn(LoadLedger(Parsed(JObj(fields)), today, strToNum), d) ==
        if key in fields && fields[key].JArr? && i < |fields[key].items| && fields[key].items[i].JNum?
        then fields[key].items[i].n
        else 0.0
  {
    WeekKeyNotProto(d);
  }
}

=== FILE: seqs.dfy ===
/** Sequence helpers shared by the list-manipulating pages: the JavaScript
    array operations `filter`, `findIndex` and `splice`, stated over `seq`. */
module Seqs {

  /** A value that may be absent (`undefined` / `null` in the source). */
  datatype Option<+T> = None | Some(value: T)

  /** `a` is an order-preserving subsequence of `b` (greedy leftmost matching). */
  predicate IsSubsequence<T(==)>(a: seq<T>, b: seq<T>)
    decreases |b|
  {
    && |a| <= |b|
    && (a == [] || if a[0] == b[0] then IsSubsequence(a[1..], b[1..]) else IsSubsequence(a, b[1..]))
  }

  /** `xs.filter(p)`: the elements satisfying `p`, in their original order. */
  function Filter<T(==)>(p: T -> bool, xs: seq<T>): (r: seq<T>)
    ensures |r| <= |xs|
    ensures forall i :: 0 <= i < |r| ==> p(r[i]) && r[i] in xs
    ensures forall i :: 0 <= i < |xs| && p(xs[i]) ==> xs[i] in r
  {
    if xs == [] then []
    else
      var rest := Filter(p, xs[1..]);
      assert xs == [xs[0]] + xs[1..];
      if p(xs[0]) then [xs[0]] + rest else rest
  }

  /** What `filter` keeps is an order-preserving subsequence, so also a sub-multiset. */
  lemma {:induction false} FilterSubsequence<T>(p: T -> bool, xs: seq<T>)
    ensures IsSubsequence(Filter(p, xs), xs)
    ensures multiset(Filter(p, xs)) <= multiset(xs)
  {
    if xs != [] {
      FilterSubsequence(p, xs[1..]);
      var rest := Filter(p, xs[1..]);
      assert xs == [xs[0]] + xs[1..];
      if p(xs[0]) {
        assert ([xs[0]] + rest)[1..] == rest;
      } else {
        assert rest == [] || p(rest[0]);
      }
    }
  }

  /** Number of elements satisfying `p` (`xs.filter(p).length`). */
  function Count<T(==)>(p: T -> bool, xs: seq<T>): (n: nat)
    ensures n <= |xs|
  {
    |Filter(p, xs)|
  }

  /** `xs.findIndex(p)`: the first index satisfying `p`, or -1 when there is none. */
  function FindIndex<T>(p: T -> bool, xs: seq<T>): (i: int)
    ensures -1 <= i < |xs|
    ensures 0 <= i ==> p(xs[i])
    ensures forall j :: 0 <= j < |xs| && (j < i || i == -1) ==> !p(xs[j])
  {
    if xs == [] then -1
    else if p(xs[0]) then 0
    else
      var k := FindIndex(p, xs[1..]);
      if k == -1 then -1 else k + 1
  }

  /** `splice(i, 1)` on a copy: the sequence without its element at `i`. */
  function RemoveAt<T>(xs: seq<T>, i: nat): (r: seq<T>)
    requires i < |xs|
    ensures |r| == |xs| - 1
    ensures forall j :: 0 <= j < i ==> r[j] == xs[j]
    ensures forall j :: i <= j < |r| ==> r[j] == xs[j + 1]
    ensures multiset(r) + multiset{xs[i]} == multiset(xs)
  {
    assert xs == xs[..i] + [xs[i]] + xs[i + 1..];
    xs[..i] + xs[i + 1..]
  }

  /** `splice(i, 0, x)` on a copy: the sequence with `x` inserted before position `i`. */
  function InsertAt<T>(xs: seq<T>, i: nat, x: T): (r: seq<T>)
    requires i <= |xs|
    ensures |r| == |xs| + 1
    ensures r[i] == x
    ensures forall j :: 0 <= j < i ==> r[j] == xs[j]
    ensures forall j :: i < j < |r| ==> r[j] == xs[j - 1]
    ensures multiset(r) == multiset(xs) + multiset{x}
  {
    assert xs == xs[..i] + xs[i..];
    xs[..i] + [x] + xs[i..]
  }

  /** Removing what was just inserted gives the sequence back. */
  lemma RemoveInserted<T>(xs: seq<T>, i: nat, x: T)
    requires i <= |xs|
    ensures RemoveAt(InsertAt(xs, i, x), i) == xs
  {
    assert RemoveAt(InsertAt(xs, i, x), i) == xs[..i] + xs[i..];
    assert xs == xs[..i] + xs[i..];
  }

  /** Putting a removed element back where it was gives the sequence back. */
  lemma InsertRemoved<T>(xs: seq<T>, i: nat)
    requires i < |xs|
    ensures InsertAt(RemoveAt(xs, i), i, xs[i]) == xs
  {
    assert InsertAt(RemoveAt(xs, i), i, xs[i]) == xs[..i] + [xs[i]] + xs[i + 1..];
    assert xs == xs[..i] + [xs[i]] + xs[i + 1..];
  }

  /** Counting over a sequence split into its head and its tail. */
  lemma CountCons<T>(p: T -> bool, xs: seq<T>)
    requires xs != []
    ensures Count(p, xs) == (if p(xs[0]) then 1 else 0) + Count(p, xs[1..])
  {
  }

  /** Every element satisfies `p` exactly when all of them are counted. */
  lemma {:induction false} CountAll<T>(p: T -> bool, xs: seq<T>)
    ensures Count(p, xs) == |xs| <==> forall i :: 0 <= i < |xs| ==> p(xs[i])
  {
    if xs != [] {
      CountCons(p, xs);
      CountAll(p, xs[1..]);
      if forall i :: 0 <= i < |xs[1..]| ==> p(xs[1..][i]) {
        if p(xs[0]) {
          forall i | 0 <= i < |xs|
            ensures p(xs[i])
          {
            if i > 0 {
              assert xs[i] == xs[1..][i - 1];
            }
          }
        }
      } else {
        var i :| 0 <= i < |xs[1..]| && !p(xs[1..][i]);
        assert !p(xs[i + 1]);
      }
    }
  }

  /** No element satisfies `p` exactly when none is counted. */
  lemma {:induction false} CountNone<T>(p: T -> bool, xs: seq<T>)
    ensures Count(p, xs) == 0 <==> forall i :: 0 <= i < |xs| ==> !p(xs[i])
  {
    if xs != [] {
      CountCons(p, xs);
      CountNone(p, xs[1..]);
      if forall i :: 0 <= i < |xs[1..]| ==> !p(xs[1..][i]) {
        if !p(xs[0]) {
          forall i | 0 <= i < |xs|
            ensures !p(xs[i])
          {
            if i > 0 {
              assert xs[i] == xs[1..][i - 1];
            }
          }
        }
      } else {
        var i :| 0 <= i < |xs[1..]| && p(xs[1..][i]);
        assert p(xs[i + 1]);
      }
    }
  }

  /** Filtering with a test every element passes keeps the whole sequence. */
  lemma {:induction false} FilterAll<T>(p: T -> bool, xs: seq<T>)
    requires forall i :: 0 <= i < |xs| ==> p(xs[i])
    ensures Filter(p, xs) == xs
  {
    if xs != [] {
      FilterAll(p, xs[1..]);
      assert xs == [xs[0]] + xs[1..];
    }
  }

  /** Filtering a concatenation filters each part. */
  lemma {:induction false} FilterAppend<T>(p: T -> bool, a: seq<T>, b: seq<T>)
    ensures Filter(p, a + b) == Filter(p, a) + Filter(p, b)
  {
    if a == [] {
      assert a + b == b;
    } else {
      var ab := a + b;
      assert ab[0] == a[0] && ab[1..] == a[1..] + b;
      FilterAppend(p, a[1..], b);
      var head := if p(a[0]) then [a[0]] else [];
      assert Filter(p, ab) == head + Filter(p, ab[1..]);
      assert Filter(p, a) == head + Filter(p, a[1..]);
    }
  }
}

=== FILE: sessions.dfy ===
/** The session counter (`sessionsByDay`): completed focus sessions per day
    key. Loaded counts are whatever non-negative numbers storage held, so the
    counts are reals rather than naturals. */
module Sessions {
  import opened Dates
  import opened JsValue

  /** `sessionsByDay`: day key to the number of focus sessions completed that day. */
  type Counter = map<string, real>

  /** `sessionsByDay[key] ?? 0`. */
  function SessionsOn(c: Counter, key: string): real
  {
    if key in c then c[key] else 0.0
  }

  /** A completed focus session on `today`: that day's count goes up by one. */
  function RecordSession(c: Counter, today: Day): (r: Counter)
    ensures r.Keys == c.Keys + {FormatDate(today)}
    ensures SessionsOn(r, FormatDate(today)) == SessionsOn(c, FormatDate(today)) + 1.0
    ensures forall k :: k != FormatDate(today) ==> SessionsOn(r, k) == SessionsOn(c, k)
  {
    var todayKey := FormatDate(today);
    c[todayKey := SessionsOn(c, todayKey) + 1.0]
  }

  /** `Number(v)` is a number (not NaN) and at least 0; the model keeps finite values only. */
  predicate IsCount(n: Num)
  {
    n.Finite? && n.r >= 0.0
  }

  /** The entries of a stored object whose `Number(v)` is a count, as numbers. The
      assignment `cleaned[k] = num` creates no entry for the key `__proto__`. */
  function CleanCounts(fields: map<string, Json>, strToNum: string -> Num): (r: Counter)
    ensures forall k :: k in r <==> k in fields && k != ProtoKey && IsCount(ToNumber(fields[k], strToNum))
    ensures forall k :: k in r ==> k in fields && IsCount(ToNumber(fields[k], strToNum)) && r[k] == ToNumber(fields[k], strToNum).r
  {
    map k | k in fields && k != ProtoKey && IsCount(ToNumber(fields[k], strToNum)) :: ToNumber(fields[k], strToNum).r
  }

  /** Some entry's `Number(v)` throws: the cleaning loop is abandoned for the inner `catch`. */
  predicate SomeConversionThrows(fields: map<string, Json>)
  {
    exists k :: k in fields && Throws(fields[k])
  }

  /** Loading `sessionsByDay`. A stored object keeps exactly the entries whose `Number(v)`
      is a count, unless none survive; text `JSON.parse` rejects is read as one count for
      today through `Number(raw)`; every other case gives `{[today]: 0}`. That includes an
      object on one of whose entries `Number` throws: the `catch` then reads `Number(raw)`
      of the object's text, which starts with `{` and so is NaN. */
  function LoadSessions(stored: Stored, today: Day, strToNum: string -> Num): (r: Counter)
    ensures stored.Parsed? && stored.value.JObj? && SomeConversionThrows(stored.value.fields) ==>
      r == map[FormatDate(today) := 0.0]
    ensures stored.Parsed? && stored.value.JObj? && !SomeConversionThrows(stored.value.fields) &&
            CleanCounts(stored.value.fields, strToNum) != map[] ==>
      r == CleanCounts(stored.value.fields, strToNum)
    ensures stored.Unparseable? && IsCount(strToNum(stored.text)) ==> r == map[FormatDate(today) := strToNum(stored.text).r]
    ensures !(stored.Parsed? && stored.value.JObj? && !SomeConversionThrows(stored.value.fields) &&
              CleanCounts(stored.value.fields, strToNum) != map[]) &&
            !(stored.Unparseable? && IsCount(strToNum(stored.text))) ==>
      r == map[FormatDate(today) := 0.0]
    ensures r != map[]
    ensures forall k :: k in r ==> r[k] >= 0.0
  {
    var todayKey := FormatDate(today);
    var zeroToday := map[todayKey := 0.0];
    assert todayKey in zeroToday;
    match stored
    case Parsed(JObj(fields)) =>
      var cleaned := CleanCounts(fields, strToNum);
      if !SomeConversionThrows(fields) && cleaned != map[] then cleaned else zeroToday
    case Unparseable(text) =>
      var n := strToNum(text);
      if IsCount(n) then
        var counted := map[todayKey := n.r];
        assert todayKey in counted;
        counted
      else zeroToday
    case _ => zeroToday
  }

  /** A day's count stored next to an entry whose `Number` throws is lost: `{"2024-05-06": 2,
      "x": {"toString": 0}}` loads as `{[today]: 0}`. */
  lemma ThrowingEntryDropsAll(today: Day, strToNum: string -> Num)
    ensures var fields := map["2024-05-06" := JNum(2.0), "x" := JObj(map["toString" := JNum(0.0)])];
      LoadSessions(Parsed(JObj(fields)), today, strToNum) == map[FormatDate(today) := 0.0]
  {
    var fields := map["2024-05-06" := JNum(2.0), "x" := JObj(map["toString" := JNum(0.0)])];
    assert Throws(fields["x"]);
  }

  /** An object whose only count sits under `__proto__` keeps nothing, so today starts at 0. */
  lemma ProtoEntryDropped(today: Day, strToNum: string -> Num)
    ensures LoadSessions(Parsed(JObj(map[ProtoKey := JNum(3.0)])), today, strToNum) == map[FormatDate(today) := 0.0]
  {
    var fields := map[ProtoKey := JNum(3.0)];
    assert CleanCounts(fields, strToNum) == map[];
  }

  /** A stored value that parses as JSON but is not an object (a bare number such as `3`
      included) never reaches the `Number(raw)` fallback: today starts at 0. */
  lemma ParsedNonObjectGivesZero(v: Json, today: Day, strToNum: string -> Num)
    requires !v.JObj?
    ensures LoadSessions(Parsed(v), today, strToNum) == map[FormatDate(today) := 0.0]
  {
  }

  /** The JSON image `JSON.stringify` gives of a counter. */
  function CounterToJson(c: Counter): Json
  {
    JObj(map k | k in c :: JNum(c[k]))
  }

  /** Saving a counter of non-negative counts and loading it back gives it back, except
      for an entry under `__proto__`, which is dropped; a counter with nothing else loads
      as `{[today]: 0}`. */
  lemma CounterRoundTrip(c: Counter, today: Day, strToNum: string -> Num)
    requires forall k :: k in c ==> c[k] >= 0.0
    ensures c.Keys - {ProtoKey} != {} ==> LoadSessions(Parsed(CounterToJson(c)), today, strToNum) == c - {ProtoKey}
    ensures c.Keys - {ProtoKey} == {} ==> LoadSessions(Parsed(CounterToJson(c)), today, strToNum) == map[FormatDate(today) := 0.0]
  {
    var fields := CounterToJson(c).fields;
    assert !SomeConversionThrows(fields);
    var cleaned := CleanCounts(fields, strToNum);
    assert cleaned.Keys == c.Keys - {ProtoKey};
    if c.Keys - {ProtoKey} != {} {
      var k :| k in c.Keys - {ProtoKey};
      assert k in cleaned;
    }
  }
}

=== FILE: streak.dfy ===
/** The streak badge (`computeStreakFromStudyData`): consecutive days with study
    minutes, walking back from today over at most 365 days, where an empty
    today does not break the streak but any earlier empty day does. The walk
    reads the ledger only through `getMinutesForDate`, so it is stated over any
    day-reading function `minutesOn`; the dashboard's streak is the one over
    `d => MinutesOn(ledger, d)`. */
module Streak {
  import opened Dates
  import opened Ledger

  /** How many days back the walk looks. */
  const Horizon: nat := 365

  /** The walk's test for the day `i` days before today: `minutes > 0`. */
  predicate StudiedDaysAgo(minutesOn: Day -> real, today: Day, i: int)
  {
    minutesOn(today - i) > 0.0
  }

  /** Number of consecutive studied days starting `from` days ago, never looking
      further back than the horizon. */
  function Run(minutesOn: Day -> real, today: Day, from: nat): (n: nat)
    requires from <= Horizon
    ensures from + n <= Horizon
    ensures forall j :: from <= j < from + n ==> StudiedDaysAgo(minutesOn, today, j)
    ensures from + n < Horizon ==> !StudiedDaysAgo(minutesOn, today, from + n)
    decreases Horizon - from
  {
    if from == Horizon || !StudiedDaysAgo(minutesOn, today, from) then 0
    else 1 + Run(minutesOn, today, from + 1)
  }

  /** The streak as a specification: the run starting today, or starting yesterday
      when today has no minutes. */
  function StreakSpec(minutesOn: Day -> real, today: Day): nat
  {
    if StudiedDaysAgo(minutesOn, today, 0) then Run(minutesOn, today, 0) else Run(minutesOn, today, 1)
  }

  /** `computeStreakFromStudyData(data)` on day `today`, following the source's loop. */
  method ComputeStreak(minutesOn: Day -> real, today: Day) returns (streak: nat)
    ensures streak <= Horizon
    ensures streak == StreakSpec(minutesOn, today)
  {
    var start := if StudiedDaysAgo(minutesOn, today, 0) then 0 else 1;
    streak := 0;
    var i := 0;
    while i < Horizon
      invariant 0 <= i <= Horizon
      invariant i == 0 ==> streak == 0
      invariant 0 < i ==> start <= i && streak == i - start
      invariant forall j :: start <= j < i ==> StudiedDaysAgo(minutesOn, today, j)
      decreases Horizon - i
    {
      var minutes := minutesOn(today - i);
      if minutes > 0.0 {
        streak := streak + 1;
        i := i + 1;
        continue;
      }
      if i == 0 {
        i := i + 1;
        continue;
      }
      RunStopsAt(minutesOn, today, start, i);
      return;
    }
    RunStopsAt(minutesOn, today, start, Horizon);
  }

  /** A run from `start` whose days are studied up to `stop`, which is unstudied or the
      horizon, has length `stop - start`. */
  lemma {:induction false} RunStopsAt(minutesOn: Day -> real, today: Day, start: nat, stop: nat)
    requires start <= stop <= Horizon
    requires forall j :: start <= j < stop ==> StudiedDaysAgo(minutesOn, today, j)
    requires stop < Horizon ==> !StudiedDaysAgo(minutesOn, today, stop)
    ensures Run(minutesOn, today, start) == stop - start
    decreases stop - start
  {
    if start < stop {
      RunStopsAt(minutesOn, today, start + 1, stop);
    }
  }

  /** Nothing today, study yesterday and the day before, nothing three days ago: a
      streak of 2. */
  lemma TwoDayStreak(minutesOn: Day -> real, today: Day)
    requires !StudiedDaysAgo(minutesOn, today, 0)
    requires StudiedDaysAgo(minutesOn, today, 1) && StudiedDaysAgo(minutesOn, today, 2)
    requires !StudiedDaysAgo(minutesOn, today, 3)
    ensures StreakSpec(minutesOn, today) == 2
  {
    RunStopsAt(minutesOn, today, 1, 3);
  }

  /** Study on each of the last ten days (today included) gives at least 10, and exactly
      10 when the eleventh day back is empty. */
  lemma TenDayStreak(minutesOn: Day -> real, today: Day)
    requires forall j :: 0 <= j < 10 ==> StudiedDaysAgo(minutesOn, today, j)
    ensures StreakSpec(minutesOn, today) >= 10
    ensures !StudiedDaysAgo(minutesOn, today, 10) ==> StreakSpec(minutesOn, today) == 10
  {
    if !StudiedDaysAgo(minutesOn, today, 10) {
      RunStopsAt(minutesOn, today, 0, 10);
    }
  }

  /** More minutes on every day never shorten a run. */
  lemma {:induction false} RunMonotone(m1: Day -> real, m2: Day -> real, today: Day, from: nat)
    requires from <= Horizon
    requires forall d :: m1(d) <= m2(d)
    ensures Run(m1, today, from) <= Run(m2, today, from)
    decreases Horizon - from
  {
    if from < Horizon && StudiedDaysAgo(m1, today, from) {
      assert m1(today - from) <= m2(today - from);
      RunMonotone(m1, m2, today, from + 1);
    }
  }

  /** More minutes on every day never lower the streak. */
  lemma StreakMonotone(m1: Day -> real, m2: Day -> real, today: Day)
    requires forall d :: m1(d) <= m2(d)
    ensures StreakSpec(m1, today) <= StreakSpec(m2, today)
  {
    RunMonotone(m1, m2, today, 0);
    RunMonotone(m1, m2, today, 1);
    assert m1(today - 0) <= m2(today - 0);
    if !StudiedDaysAgo(m1, today, 0) && StudiedDaysAgo(m2, today, 0) {
      assert Run(m2, today, 0) == 1 + Run(m2, today, 1);
    }
  }

  /** The day-reading function of a ledger (`getMinutesForDate(date, data)`). */
  function MinutesOf(ledger: StudyLedger): Day -> real
  {
    d => MinutesOn(ledger, d)
  }

  /** Banking time on any day, today or not, never lowers the streak the dashboard shows. */
  lemma BankNeverLowersStreak(ledger: StudyLedger, day: Day, deltaSec: int, today: Day)
    requires deltaSec >= 1
    ensures StreakSpec(MinutesOf(ledger), today) <= StreakSpec(MinutesOf(Bank(ledger, day, deltaSec)), today)
  {
    var after := Bank(ledger, day, deltaSec);
    BankDays(ledger, day, deltaSec);
    assert forall d :: MinutesOf(ledger)(d) <= MinutesOf(after)(d);
    StreakMonotone(MinutesOf(ledger), MinutesOf(after), today);
  }
}

=== FILE: subjects.dfy ===
/** The onboarding form's subject check lists (favourite, strong, weak): `toggle`
    adds a subject that is not in the list and removes one that is. */
module Subjects {
  import opened Seqs

  /** `toggle(arr, set, item)`: the list `set` receives. */
  function Toggle(arr: seq<string>, item: string): (r: seq<string>)
    ensures item !in arr ==> r == arr + [item]
    ensures item in arr ==> item !in r && IsSubsequence(r, arr)
    ensures item in r <==> item !in arr
    ensures forall y :: y != item ==> (y in r <==> y in arr)
  {
    if item in arr then
      var keep := (x: string) => x != item;
      FilterSubsequence(keep, arr);
      Filter(keep, arr)
    else arr + [item]
  }

  /** Removing keeps every other subject, in order: the list minus all occurrences. */
  lemma ToggleRemovesAll(arr: seq<string>, item: string)
    requires item in arr
    ensures Toggle(arr, item) == Filter((x: string) => x != item, arr)
    ensures |Toggle(arr, item)| == |arr| - Count((x: string) => x == item, arr)
  {
    RemovedCount(arr, item);
  }

  lemma {:induction false} RemovedCount(arr: seq<string>, item: string)
    ensures |Filter((x: string) => x != item, arr)| == |arr| - Count((x: string) => x == item, arr)
  {
    if arr != [] {
      RemovedCount(arr[1..], item);
      CountCons((x: string) => x == item, arr);
    }
  }

  /** Ticking a box twice leaves the list as it was. */
  lemma ToggleTwiceAbsent(arr: seq<string>, item: string)
    requires item !in arr
    ensures Toggle(Toggle(arr, item), item) == arr
  {
    var keep := (x: string) => x != item;
    FilterAppend(keep, arr, [item]);
    FilterAll(keep, arr);
    assert Filter(keep, [item]) == [];
  }

  /** Unticking and ticking again moves the subject to the end of the list. */
  lemma ToggleTwicePresent(arr: seq<string>, item: string)
    requires item in arr
    ensures Toggle(Toggle(arr, item), item) == Filter((x: string) => x != item, arr) + [item]
  {
  }
}

=== FILE: tasks.dfy ===
/** The to-do list page: tasks, adding, completing, deleting and renaming them,
    moving one by drag and drop, and the number completed. */
module Tasks {
  import opened Seqs
  import opened Text

  /** `1 | 2 | 3`, shown as `!`, `!!`, `!!!`. */
  type Priority = p: int | 1 <= p <= 3 witness 1

  /** A task; `date` (`yyyy-mm-dd`) and `time` (`hh:mm`) are optional. */
  datatype Task = Task(
    id: string,
    name: string,
    description: string,
    completed: bool,
    color: string,
    priority: Priority,
    date: Option<string>,
    time: Option<string>)

  /** The fields of the "add a task" form. */
  datatype TaskForm = TaskForm(
    name: string,
    description: string,
    color: string,
    priority: Priority,
    date: string,
    time: string)

  /** `value || undefined`: the empty string means "not set". */
  function Optional(value: string): (o: Option<string>)
    ensures o.None? <==> value == ""
    ensures o.Some? ==> o.value == value
  {
    if value == "" then None else Some(value)
  }

  /** `addTask`, with `id` the `Date.now().toString()` of the moment: a blank name adds
      nothing; otherwise one new, not completed task with the trimmed name and
      description goes at the end. */
  function AddTask(tasks: seq<Task>, form: TaskForm, id: string): (r: seq<Task>)
    ensures IsBlank(form.name) ==> r == tasks
    ensures !IsBlank(form.name) ==>
      && |r| == |tasks| + 1
      && r[..|tasks|] == tasks
      && r[|tasks|].id == id
      && r[|tasks|].name == Trim(form.name) && r[|tasks|].name != ""
      && r[|tasks|].description == Trim(form.description)
      && !r[|tasks|].completed
      && r[|tasks|].color == form.color && r[|tasks|].priority == form.priority
      && r[|tasks|].date == Optional(form.date) && r[|tasks|].time == Optional(form.time)
  {
    if Trim(form.name) == "" then tasks
    else
      tasks + [Task(id, Trim(form.name), Trim(form.description), false, form.color, form.priority,
                    Optional(form.date), Optional(form.time))]
  }

  /** Adding a task under a fresh id and deleting that id gives the list back. */
  lemma AddThenDelete(tasks: seq<Task>, form: TaskForm, id: string)
    requires forall i :: 0 <= i < |tasks| ==> tasks[i].id != id
    ensures DeleteTask(AddTask(tasks, form, id), id) == tasks
  {
    var keep := (t: Task) => t.id != id;
    FilterAll(keep, tasks);
    if !IsBlank(form.name) {
      var added := AddTask(tasks, form, id);
      assert added == tasks + [added[|tasks|]];
      FilterAppend(keep, tasks, [added[|tasks|]]);
      assert Filter(keep, [added[|tasks|]]) == [];
    }
  }

  /** `toggleTask(id)`: every task with that id changes its completion, nothing else changes. */
  function ToggleTask(tasks: seq<Task>, id: string): (r: seq<Task>)
    ensures |r| == |tasks|
    ensures forall i :: 0 <= i < |r| ==> r[i].completed == (tasks[i].completed != (tasks[i].id == id))
    ensures forall i :: 0 <= i < |r| ==> r[i].(completed := tasks[i].completed) == tasks[i]
  {
    seq(|tasks|, i requires 0 <= i < |tasks| =>
      if tasks[i].id == id then tasks[i].(completed := !tasks[i].completed) else tasks[i])
  }

  /** Toggling the same task twice restores the list. */
  lemma ToggleTwice(tasks: seq<Task>, id: string)
    ensures ToggleTask(ToggleTask(tasks, id), id) == tasks
  {
  }

  /** `completedCount`: the number of completed tasks. */
  function CompletedCount(tasks: seq<Task>): (n: nat)
    ensures n <= |tasks|
  {
    Count((t: Task) => t.completed, tasks)
  }

  /** The count is the full length exactly when every task is done, and 0 exactly when none is. */
  lemma CompletedCountBounds(tasks: seq<Task>)
    ensures CompletedCount(tasks) == |tasks| <==> forall i :: 0 <= i < |tasks| ==> tasks[i].completed
    ensures CompletedCount(tasks) == 0 <==> forall i :: 0 <= i < |tasks| ==> !tasks[i].completed
  {
    CountAll((t: Task) => t.completed, tasks);
    CountNone((t: Task) => t.completed, tasks);
  }

  /** Tasks with id `id`, done and not done. */
  function DoneWithId(tasks: seq<Task>, id: string): nat
  {
    Count((t: Task) => t.id == id && t.completed, tasks)
  }

  function OpenWithId(tasks: seq<Task>, id: string): nat
  {
    Count((t: Task) => t.id == id && !t.completed, tasks)
  }

  /** Toggling moves the tasks with that id between done and not done, so the completed
      count goes down by those that were done and up by those that were not. */
  lemma {:induction false} ToggleCompletedCount(tasks: seq<Task>, id: string)
    ensures CompletedCount(ToggleTask(tasks, id)) == CompletedCount(tasks) - DoneWithId(tasks, id) + OpenWithId(tasks, id)
  {
    if tasks != [] {
      var r := ToggleTask(tasks, id);
      assert r[1..] == ToggleTask(tasks[1..], id);
      ToggleCompletedCount(tasks[1..], id);
      CountCons((t: Task) => t.completed, r);
      CountCons((t: Task) => t.completed, tasks);
      CountCons((t: Task) => t.id == id && t.completed, tasks);
      CountCons((t: Task) => t.id == id && !t.completed, tasks);
    }
  }

  /** `deleteTask(id)`: the tasks whose id differs, in their order. */
  function DeleteTask(tasks: seq<Task>, id: string): (r: seq<Task>)
    ensures forall i :: 0 <= i < |r| ==> r[i].id != id
    ensures forall i :: 0 <= i < |tasks| && tasks[i].id != id ==> tasks[i] in r
    ensures IsSubsequence(r, tasks)
    ensures multiset(r) <= multiset(tasks)
  {
    FilterSubsequence((t: Task) => t.id != id, tasks);
    Filter((t: Task) => t.id != id, tasks)
  }

  /** Deleting an id no task has changes nothing. */
  lemma {:induction false} DeleteAbsent(tasks: seq<Task>, id: string)
    requires forall i :: 0 <= i < |tasks| ==> tasks[i].id != id
    ensures DeleteTask(tasks, id) == tasks
  {
    if tasks != [] {
      DeleteAbsent(tasks[1..], id);
      assert tasks == [tasks[0]] + tasks[1..];
    }
  }

  /** Deleting removes exactly the tasks with that id: the count of survivors is the
      length minus their number. */
  lemma {:induction false} DeleteCount(tasks: seq<Task>, id: string)
    ensures |DeleteTask(tasks, id)| == |tasks| - Count((t: Task) => t.id == id, tasks)
  {
    if tasks != [] {
      DeleteCount(tasks[1..], id);
      CountCons((t: Task) => t.id == id, tasks);
    }
  }

  /** The inline-edit state of the list view: the task being renamed and its text. */
  datatype Editing = Editing(taskId: Option<string>, text: string)

  /** `saveEditingTask`: when a task is being edited (a non-empty id) and the text is not
      blank, the tasks with that id take the trimmed text as their name; the edit state
      is cleared in every case. */
  function SaveEditingTask(tasks: seq<Task>, editing: Editing): (r: (seq<Task>, Editing))
    ensures r.1 == Editing(None, "")
    ensures |r.0| == |tasks|
    ensures forall i :: 0 <= i < |tasks| ==> r.0[i].(name := tasks[i].name) == tasks[i]
    ensures forall i :: 0 <= i < |tasks| ==>
      r.0[i].name == if editing.taskId.Some? && editing.taskId.value != "" && tasks[i].id == editing.taskId.value && !IsBlank(editing.text)
                     then Trim(editing.text) else tasks[i].name
  {
    var renamed :=
      if editing.taskId.Some? && editing.taskId.value != "" && Trim(editing.text) != "" then
        seq(|tasks|, i requires 0 <= i < |tasks| =>
          if tasks[i].id == editing.taskId.value then tasks[i].(name := Trim(editing.text)) else tasks[i])
      else tasks;
    (renamed, Editing(None, ""))
  }

  /** Saving a blank text leaves every task as it was. */
  lemma SaveBlankKeepsTasks(tasks: seq<Task>, id: string, text: string)
    requires IsBlank(text)
    ensures SaveEditingTask(tasks, Editing(Some(id), text)).0 == tasks
  {
  }

  /** The position `splice` starts at for index `i` on a sequence of length `len`:
      negative indices count from the end, and both ends are clamped. */
  function SpliceIndex(i: int, len: nat): (k: nat)
    ensures k <= len
    ensures 0 <= i <= len ==> k == i
    ensures i == -1 && len > 0 ==> k == len - 1
  {
    if i < 0 then (if len + i < 0 then 0 else len + i)
    else if i > len then len
    else i
  }

  /** `splice(from, 1)` followed by `splice(to, 0, item)`: the element at `from` moved to `to`. */
  function Move<T>(xs: seq<T>, from: nat, to: nat): (r: seq<T>)
    requires from < |xs| && to < |xs|
    ensures |r| == |xs|
    ensures r[to] == xs[from]
    ensures RemoveAt(r, to) == RemoveAt(xs, from)
    ensures multiset(r) == multiset(xs)
  {
    var rest := RemoveAt(xs, from);
    RemoveInserted(rest, to, xs[from]);
    InsertAt(rest, to, xs[from])
  }

  /** Moving an element back from where it was moved restores the sequence. */
  lemma MoveBack<T>(xs: seq<T>, from: nat, to: nat)
    requires from < |xs| && to < |xs|
    ensures Move(Move(xs, from, to), to, from) == xs
  {
    var moved := Move(xs, from, to);
    InsertRemoved(xs, from);
    assert RemoveAt(moved, to) == RemoveAt(xs, from);
  }

  /** The test `t => t.id === id`. */
  function HasId(id: string): Task -> bool
  {
    (t: Task) => t.id == id
  }

  /** `handleDragOver` with `dragged` the id being dragged over the task `targetId`.
      Nothing happens when nothing is dragged or the target is the dragged task itself.
      Otherwise the dragged task is taken out at its index and inserted at the target's
      index; a dragged id that is not found gives index -1, which `splice` reads as the
      last task. The handler only fires on a rendered task, so the list is not empty. */
  function Reorder(tasks: seq<Task>, dragged: Option<string>, targetId: string): (r: seq<Task>)
    requires |tasks| > 0
    ensures dragged.None? || dragged.value == targetId ==> r == tasks
    ensures |r| == |tasks|
    ensures multiset(r) == multiset(tasks)
    ensures dragged.Some? && dragged.value != targetId ==>
      var from := FindIndex(HasId(dragged.value), tasks);
      var to := FindIndex(HasId(targetId), tasks);
      0 <= from && 0 <= to ==>
        && r[to] == tasks[from]
        && RemoveAt(r, to) == RemoveAt(tasks, from)
  {
    if dragged.None? || dragged.value == targetId then tasks
    else
      var from := SpliceIndex(FindIndex(HasId(dragged.value), tasks), |tasks|);
      var to := SpliceIndex(FindIndex(HasId(targetId), tasks), |tasks| - 1);
      Move(tasks, from, to)
  }

  /** When both ids are found, the reorder is the move from the dragged task's index to
      the target's. */
  lemma ReorderIsMove(tasks: seq<Task>, dragged: string, targetId: string, from: nat, to: nat)
    requires dragged != targetId
    requires from < |tasks| && FindIndex(HasId(dragged), tasks) == from
    requires to < |tasks| && FindIndex(HasId(targetId), tasks) == to
    ensures Reorder(tasks, Some(dragged), targetId) == Move(tasks, from, to)
  {
  }

  /** A move forward shifts the elements in between back by one. */
  lemma MoveForward<T>(xs: seq<T>, from: nat, to: nat)
    requires from <= to < |xs|
    ensures Move(xs, from, to) == xs[..from] + xs[from + 1..to + 1] + [xs[from]] + xs[to + 1..]
  {
    var r := Move(xs, from, to);
    var s := xs[..from] + xs[from + 1..to + 1] + [xs[from]] + xs[to + 1..];
    assert |r| == |s|;
    forall i | 0 <= i < |r|
      ensures r[i] == s[i]
    {
      if i < from {
        assert r[i] == RemoveAt(r, to)[i] == RemoveAt(xs, from)[i];
      } else if i < to {
        assert r[i] == RemoveAt(r, to)[i] == RemoveAt(xs, from)[i];
      } else if i > to {
        assert r[i] == RemoveAt(r, to)[i - 1] == RemoveAt(xs, from)[i - 1];
      }
    }
  }

  /** A move backward shifts the elements in between forward by one. */
  lemma MoveBackward<T>(xs: seq<T>, from: nat, to: nat)
    requires to <= from < |xs|
    ensures Move(xs, from, to) == xs[..to] + [xs[from]] + xs[to..from] + xs[from + 1..]
  {
    var r := Move(xs, from, to);
    var s := xs[..to] + [xs[from]] + xs[to..from] + xs[from + 1..];
    assert |r| == |s|;
    forall i | 0 <= i < |r|
      ensures r[i] == s[i]
    {
      if i < to {
        assert r[i] == RemoveAt(r, to)[i] == RemoveAt(xs, from)[i];
      } else if to < i {
        assert r[i] == RemoveAt(r, to)[i - 1] == RemoveAt(xs, from)[i - 1];
      }
    }
  }

  /** Moving the first element to the end. */
  lemma MoveToEnd<T>(xs: seq<T>)
    requires |xs| >= 1
    ensures Move(xs, 0, |xs| - 1) == xs[1..] + [xs[0]]
  {
    var r, s, n := Move(xs, 0, |xs| - 1), xs[1..] + [xs[0]], |xs|;
    forall i | 0 <= i < n
      ensures r[i] == s[i]
    {
      if i < n - 1 {
        assert r[i] == RemoveAt(r, n - 1)[i] == RemoveAt(xs, 0)[i];
      }
    }
  }

  /** Moving the last element to the front. */
  lemma MoveToFront<T>(xs: seq<T>)
    requires |xs| >= 1
    ensures Move(xs, |xs| - 1, 0) == [xs[|xs| - 1]] + xs[..|xs| - 1]
  {
    var r, s, n := Move(xs, |xs| - 1, 0), [xs[|xs| - 1]] + xs[..|xs| - 1], |xs|;
    forall i | 0 <= i < n
      ensures r[i] == s[i]
    {
      if 0 < i {
        assert r[i] == RemoveAt(r, 0)[i - 1] == RemoveAt(xs, n - 1)[i - 1];
      }
    }
  }

  /** Dragging the first task over the last one (whose id comes first at that position)
      moves it to the end; the others move up by one. */
  lemma ReorderFirstToLast(tasks: seq<Task>, targetId: string)
    requires |tasks| >= 2
    requires tasks[0].id != targetId
    requires FindIndex(HasId(targetId), tasks) == |tasks| - 1
    ensures Reorder(tasks, Some(tasks[0].id), targetId) == tasks[1..] + [tasks[0]]
  {
    var n := |tasks|;
    FindIndexAt(HasId(tasks[0].id), tasks, 0);
    ReorderIsMove(tasks, tasks[0].id, targetId, 0, n - 1);
    MoveToEnd(tasks);
  }

  /** Dragging the last task (the first with its id) over the first one moves it to the
      front; the others move down by one. */
  lemma ReorderLastToFront(tasks: seq<Task>, dragged: string)
    requires |tasks| >= 2
    requires tasks[0].id != dragged
    requires FindIndex(HasId(dragged), tasks) == |tasks| - 1
    ensures Reorder(tasks, Some(dragged), tasks[0].id) == [tasks[|tasks| - 1]] + tasks[..|tasks| - 1]
  {
    var n := |tasks|;
    FindIndexAt(HasId(tasks[0].id), tasks, 0);
    ReorderIsMove(tasks, dragged, tasks[0].id, n - 1, 0);
    MoveToFront(tasks);
  }

  /** `findIndex` of an element that satisfies `p` with none before it satisfying it. */
  lemma FindIndexAt<T>(p: T -> bool, xs: seq<T>, i: nat)
    requires i < |xs| && p(xs[i])
    requires forall j :: 0 <= j < i ==> !p(xs[j])
    ensures FindIndex(p, xs) == i
  {
  }
}

=== FILE: text.dfy ===
/** String operations the pages rely on: `trim`, `includes`, the default
    string ordering, decimal formatting of integers and `padStart`. Strings
    are sequences of characters; case folding is not modelled here. */
module Text {

  /** ECMAScript WhiteSpace and LineTerminator characters, the set `trim` strips. */
  predicate IsWhite(c: char)
  {
    var n := c as int;
    || n == 0x09 || n == 0x0A || n == 0x0B || n == 0x0C || n == 0x0D || n == 0x20
    || n == 0xA0 || n == 0x1680 || (0x2000 <= n <= 0x200A) || n == 0x2028 || n == 0x2029
    || n == 0x202F || n == 0x205F || n == 0x3000 || n == 0xFEFF
  }

  /** `!s.trim()`: the string holds nothing but white space. */
  predicate IsBlank(s: string)
  {
    forall k :: 0 <= k < |s| ==> IsWhite(s[k])
  }

  /** Number of leading white-space characters. */
  function LeadingWhite(s: string): (n: nat)
    ensures n <= |s|
    ensures IsBlank(s[..n])
    ensures n < |s| ==> !IsWhite(s[n])
  {
    if s == [] || !IsWhite(s[0]) then 0 else 1 + LeadingWhite(s[1..])
  }

  /** Length of `s` once its trailing white space is removed. */
  function EndWithoutWhite(s: string): (n: nat)
    ensures n <= |s|
    ensures IsBlank(s[n..])
    ensures 0 < n ==> !IsWhite(s[n - 1])
  {
    if s == [] || !IsWhite(s[|s| - 1]) then |s| else EndWithoutWhite(s[..|s| - 1])
  }

  /** `s.trim()`: `s` without its leading and trailing white space. */
  function Trim(s: string): (r: string)
    ensures r == [] <==> IsBlank(s)
    ensures r != [] ==> !IsWhite(r[0]) && !IsWhite(r[|r| - 1])
    ensures exists i :: 0 <= i <= |s| - |r| && r == s[i..i + |r|] && IsBlank(s[..i]) && IsBlank(s[i + |r|..])
  {
    var j := EndWithoutWhite(s);
    var i := LeadingWhite(s[..j]);
    assert s[..j][..i] == s[..i];
    if i == j then
      assert s == s[..j] + s[j..];
      []
    else
      assert s[..j][i] == s[i];
      assert s[i..j][..0] == [];
      s[i..j]
  }

  /** Trimming twice is trimming once. */
  lemma TrimIdempotent(s: string)
    ensures Trim(Trim(s)) == Trim(s)
  {
    var t := Trim(s);
    if t != [] {
      assert LeadingWhite(t) == 0;
      assert EndWithoutWhite(t) == |t|;
      assert t[..|t|] == t;
    }
  }

  /** `p` is a prefix of `s`. */
  predicate IsPrefix(p: string, s: string)
  {
    |p| <= |s| && s[..|p|] == p
  }

  /** `hay.includes(needle)`. */
  predicate Contains(hay: string, needle: string)
  {
    IsPrefix(needle, hay) || (hay != [] && Contains(hay[1..], needle))
  }

  /** `includes` holds exactly when `needle` occurs at some position of `hay`. */
  lemma {:induction false} ContainsAt(hay: string, needle: string)
    ensures Contains(hay, needle) <==> exists i :: 0 <= i <= |hay| && IsPrefix(needle, hay[i..])
  {
    if hay == [] {
      assert hay[0..] == hay;
    } else {
      ContainsAt(hay[1..], needle);
      assert hay[0..] == hay;
      if exists i :: 0 <= i <= |hay| && IsPrefix(needle, hay[i..]) {
        var i :| 0 <= i <= |hay| && IsPrefix(needle, hay[i..]);
        if i > 0 {
          assert hay[1..][i - 1..] == hay[i..];
        }
      }
      if Contains(hay[1..], needle) {
        var i :| 0 <= i <= |hay[1..]| && IsPrefix(needle, hay[1..][i..]);
        assert hay[1..][i..] == hay[i + 1..];
      }
    }
  }

  /** Default string ordering of `sort()` and `<=`: lexicographic by character code. */
  predicate LexLe(a: string, b: string)
  {
    a == [] || (b != [] && (a[0] < b[0] || (a[0] == b[0] && LexLe(a[1..], b[1..]))))
  }

  /** Strict version of `LexLe`. */
  predicate LexLess(a: string, b: string)
  {
    LexLe(a, b) && a != b
  }

  lemma {:induction false} LexLeTotal(a: string, b: string)
    ensures LexLe(a, b) || LexLe(b, a)
  {
    if a != [] && b != [] && a[0] == b[0] {
      LexLeTotal(a[1..], b[1..]);
    }
  }

  lemma {:induction false} LexLeTransitive(a: string, b: string, c: string)
    requires LexLe(a, b) && LexLe(b, c)
    ensures LexLe(a, c)
  {
    if a != [] && b != [] && c != [] && a[0] == b[0] && b[0] == c[0] {
      LexLeTransitive(a[1..], b[1..], c[1..]);
    }
  }

  lemma {:induction false} LexLeAntisymmetric(a: string, b: string)
    requires LexLe(a, b) && LexLe(b, a)
    ensures a == b
  {
    if a != [] && b != [] {
      LexLeAntisymmetric(a[1..], b[1..]);
      assert a == [a[0]] + a[1..];
      assert b == [b[0]] + b[1..];
    }
  }

  /** The decimal digit character for `d`. */
  function DigitChar(d: nat): (c: char)
    requires d < 10
    ensures '0' <= c <= '9'
  {
    (48 + d) as char
  }

  /** `String(n)` for a non-negative integer: decimal, no leading zeros. */
  function NatToString(n: nat): (s: string)
    ensures 1 <= |s|
    ensures forall k :: 0 <= k < |s| ==> '0' <= s[k] <= '9'
    ensures |s| > 1 ==> s[0] != '0'
  {
    if n < 10 then [DigitChar(n)] else NatToString(n / 10) + [DigitChar(n % 10)]
  }

  /** `String(n)` for any integer. */
  function IntToString(n: int): (s: string)
    ensures 1 <= |s|
  {
    if n < 0 then "-" + NatToString(-n) else NatToString(n)
  }

  /** Decimal value of a string of digits. */
  function ParseDigits(s: string): int
  {
    if s == [] then 0 else ParseDigits(s[..|s| - 1]) * 10 + (s[|s| - 1] as int - 48)
  }

  lemma {:induction false} ParseNatToString(n: nat)
    ensures ParseDigits(NatToString(n)) == n
  {
    if n >= 10 {
      var s := NatToString(n);
      assert s[..|s| - 1] == NatToString(n / 10);
      ParseNatToString(n / 10);
    }
  }

  lemma NatToStringInjective(a: nat, b: nat)
    requires NatToString(a) == NatToString(b)
    ensures a == b
  {
    ParseNatToString(a);
    ParseNatToString(b);
  }

  /** Distinct integers have distinct decimal renderings. */
  lemma IntToStringInjective(a: int, b: int)
    requires IntToString(a) == IntToString(b)
    ensures a == b
  {
    var sa, sb := IntToString(a), IntToString(b);
    if a < 0 && b < 0 {
      assert sa == "-" + NatToString(-a) && sb == "-" + NatToString(-b);
      assert sa[1..] == NatToString(-a) && sb[1..] == NatToString(-b);
      NatToStringInjective(-a, -b);
    } else if a >= 0 && b >= 0 {
      NatToStringInjective(a, b);
    }
  }

  /** `s.padStart(2, '0')`. */
  function PadStart2(s: string): (r: string)
    ensures |r| == if |s| < 2 then 2 else |s|
    ensures r[|r| - |s|..] == s
    ensures forall k :: 0 <= k < |r| - |s| ==> r[k] == '0'
  {
    if |s| >= 2 then s else seq(2 - |s|, _ => '0') + s
  }

  /** `String(n).padStart(2, '0')` for a day or month number. */
  function TwoDigits(n: nat): (r: string)
    requires n < 100
    ensures |r| == 2
    ensures ParseDigits(r) == n
  {
    var s := NatToString(n);
    ParseNatToString(n);
    if n < 10 then
      assert PadStart2(s) == [DigitChar(0), DigitChar(n)];
      assert PadStart2(s)[..1] == [DigitChar(0)];
      PadStart2(s)
    else
      assert |s| == 2 by {
        assert NatToString(n / 10) == [DigitChar(n / 10)];
      }
      PadStart2(s)
  }
}

=== FILE: timer.dfy ===
/** The dashboard's study timer: its modes, the start/pause, reset, mode-switch and
    duration-edit handlers, and the once-a-second tick that counts down, banks
    study minutes in focus mode and records a completed focus session. The
    clock (`Date.now()`) and the current day are parameters of the steps. */
module Timer {
  import opened Seqs
  import opened Dates
  import opened JsValue
  import opened Ledger
  import opened Sessions

  /** `TIMER_MODES`: focus, short break, long break. */
  datatype Mode = Focus | ShortBreak | LongBreak

  /** The default duration of a mode, in minutes: always a duration the editor accepts. */
  function DefaultMinutes(m: Mode): (r: real)
    ensures 5.0 <= r <= 120.0
  {
    match m
    case Focus => 25.0
    case ShortBreak => 5.0
    case LongBreak => 15.0
  }

  /** The timer's state: mode, chosen duration (`timerMinutes`), seconds left, whether
      it runs, whether the duration is being edited, and the last tick time
      (`lastTickRef`, in milliseconds). */
  datatype TimerState = TimerState(
    mode: Mode,
    minutes: real,
    timeLeft: real,
    running: bool,
    editing: bool,
    lastTick: Option<int>)

  /** The state on first render: focus mode, 25 minutes, stopped. */
  const Initial: TimerState := TimerState(Focus, 25.0, 25.0 * 60.0, false, false, None)

  /** `Math.max(5, timerMinutes || 5)`. */
  function SafeMinutes(m: real): (s: real)
    ensures s >= 5.0
    ensures s == if m < 5.0 then 5.0 else m
  {
    var chosen := if m == 0.0 then 5.0 else m;
    if chosen < 5.0 then 5.0 else chosen
  }

  /** What every reachable state satisfies: a duration within the edit bounds, a
      positive time left no larger than the full duration, and a last tick exactly
      while running (the effect on `isRunning` sets and clears `lastTickRef`). */
  predicate Valid(t: TimerState)
  {
    && 5.0 <= t.minutes <= 120.0
    && 0.0 < t.timeLeft <= t.minutes * 60.0
    && (t.running <==> t.lastTick.Some?)
  }

  lemma InitialValid()
    ensures Valid(Initial)
  {
  }

  /** The start/pause button: starting records the tick time, pausing clears it. */
  function ToggleRunning(t: TimerState, now: int): (r: TimerState)
    ensures r.running == !t.running
    ensures r.lastTick == if r.running then Some(now) else None
    ensures r.mode == t.mode && r.minutes == t.minutes && r.timeLeft == t.timeLeft && r.editing == t.editing
    ensures Valid(t) ==> Valid(r)
  {
    if t.running then t.(running := false, lastTick := None)
    else t.(running := true, lastTick := Some(now))
  }

  /** Starting and then pausing a stopped timer leaves it as it was. */
  lemma StartThenPause(t: TimerState, start: int, pause: int)
    requires Valid(t) && !t.running
    ensures ToggleRunning(ToggleRunning(t, start), pause) == t
  {
  }

  /** "Réinitialiser": stop, and refill the full duration. */
  function Reset(t: TimerState): (r: TimerState)
    ensures !r.running && r.lastTick.None?
    ensures r.timeLeft == SafeMinutes(t.minutes) * 60.0
    ensures r.mode == t.mode && r.minutes == t.minutes && r.editing == t.editing
    ensures Valid(t) ==> Valid(r) && r.timeLeft == r.minutes * 60.0
  {
    t.(running := false, lastTick := None, timeLeft := SafeMinutes(t.minutes) * 60.0)
  }

  lemma ResetIdempotent(t: TimerState)
    ensures Reset(Reset(t)) == Reset(t)
  {
  }

  /** A mode button: stop, leave editing, and take the mode's default duration. */
  function SwitchMode(t: TimerState, m: Mode): (r: TimerState)
    ensures r.mode == m && !r.running && !r.editing && r.lastTick.None?
    ensures m == Focus ==> r.minutes == 25.0
    ensures m == ShortBreak ==> r.minutes == 5.0
    ensures m == LongBreak ==> r.minutes == 15.0
    ensures r.timeLeft == r.minutes * 60.0
    ensures Valid(r)
  {
    TimerState(m, DefaultMinutes(m), DefaultMinutes(m) * 60.0, false, false, None)
  }

  /** Switching mode forgets everything about the previous state. */
  lemma SwitchModeForgets(t: TimerState, u: TimerState, m: Mode)
    ensures SwitchMode(t, m) == SwitchMode(u, m)
  {
  }

  /** Clicking the time display: stop and open the duration editor. */
  function BeginEdit(t: TimerState): (r: TimerState)
    ensures r.editing && !r.running && r.lastTick.None?
    ensures r.mode == t.mode && r.minutes == t.minutes && r.timeLeft == t.timeLeft
    ensures Valid(t) ==> Valid(r)
  {
    t.(running := false, editing := true, lastTick := None)
  }

  /** Escape in the duration editor: close it without changing the duration. */
  function CancelEdit(t: TimerState): (r: TimerState)
    ensures !r.editing
    ensures r.mode == t.mode && r.minutes == t.minutes && r.timeLeft == t.timeLeft
    ensures r.running == t.running && r.lastTick == t.lastTick
  {
    t.(editing := false)
  }

  /** `Math.min(120, Math.max(5, x))`. */
  function Clamp(x: real): (c: real)
    ensures 5.0 <= c <= 120.0
    ensures 5.0 <= x <= 120.0 ==> c == x
    ensures x < 5.0 ==> c == 5.0
    ensures x > 120.0 ==> c == 120.0
  {
    if x > 120.0 then 120.0 else if x < 5.0 then 5.0 else x
  }

  /** `commitTimerEdit` with `parsed = Number(editingTimerValue)`: a finite value,
      clamped to [5, 120], becomes the duration and refills the time left; any other
      value changes neither. The editor closes either way. */
  function CommitEdit(t: TimerState, parsed: Num): (r: TimerState)
    ensures !r.editing
    ensures r.mode == t.mode && r.running == t.running && r.lastTick == t.lastTick
    ensures parsed.Finite? ==> r.minutes == Clamp(parsed.r) && r.timeLeft == r.minutes * 60.0
    ensures !parsed.Finite? ==> r.minutes == t.minutes && r.timeLeft == t.timeLeft
    ensures Valid(t) ==> Valid(r)
  {
    if parsed.Finite? then
      var clamped := Clamp(parsed.r);
      t.(minutes := clamped, timeLeft := clamped * 60.0, editing := false)
    else
      t.(editing := false)
  }

  /** Text such as "abc" converts to NaN: the duration and time left stay as they were. */
  lemma CommitNaNKeepsDuration(t: TimerState)
    ensures CommitEdit(t, NaN).minutes == t.minutes
    ensures CommitEdit(t, NaN).timeLeft == t.timeLeft
    ensures !CommitEdit(t, NaN).editing
  {
  }

  /** Entering 200 gives 120 minutes, entering 2 gives 5. */
  lemma CommitClamps(t: TimerState)
    ensures CommitEdit(t, Finite(200.0)).minutes == 120.0 && CommitEdit(t, Finite(200.0)).timeLeft == 7200.0
    ensures CommitEdit(t, Finite(2.0)).minutes == 5.0 && CommitEdit(t, Finite(2.0)).timeLeft == 300.0
  {
  }

  /** `Math.max(1, Math.floor((now - lastTick) / 1000))` with `lastTick = lastTickRef ?? now`.
      Dafny's `/` rounds down for a positive divisor, as `Math.floor` does. */
  function TickDelta(now: int, lastTick: Option<int>): (delta: int)
    ensures delta >= 1
    ensures lastTick.None? ==> delta == 1
    ensures lastTick.Some? && now - lastTick.value >= 1000 ==>
      delta * 1000 <= now - lastTick.value < delta * 1000 + 1000
    ensures lastTick.Some? && now - lastTick.value < 2000 ==> delta == 1
  {
    var last := if lastTick.Some? then lastTick.value else now;
    var elapsed := (now - last) / 1000;
    if elapsed < 1 then 1 else elapsed
  }

  /** The state the tick works on: the timer, the study ledger and the session counter. */
  datatype Dashboard = Dashboard(timer: TimerState, ledger: StudyLedger, sessions: Counter)

  /** One interval tick at time `now` (milliseconds) on day `today`, which only happens
      while the timer runs. When the time left is at most `delta` seconds the session
      completes: the timer stops and refills, and in focus mode today's session count
      goes up by one. Otherwise the time left goes down by `delta` and the tick time
      becomes `now`. In focus mode, completing or not, the whole `delta` is banked
      into today's study minutes. */
  function Tick(d: Dashboard, now: int, today: Day): Dashboard
    requires d.timer.running
  {
    var t := d.timer;
    var delta := TickDelta(now, t.lastTick);
    var completes := t.timeLeft <= delta as real;
    var timer :=
      if completes then t.(timeLeft := SafeMinutes(t.minutes) * 60.0, running := false, lastTick := None)
      else t.(timeLeft := t.timeLeft - delta as real, lastTick := Some(now));
    var sessions := if completes && t.mode == Focus then RecordSession(d.sessions, today) else d.sessions;
    var ledger := if t.mode == Focus then Bank(d.ledger, today, delta) else d.ledger;
    Dashboard(timer, ledger, sessions)
  }

  /** The timer after a tick: with more than `delta` seconds left it counts down by
      `delta` and remembers `now`; otherwise it stops and refills to the full duration
      (`safeMinutes * 60`). A valid timer stays valid. */
  lemma TickTimer(d: Dashboard, now: int, today: Day)
    requires d.timer.running
    ensures var t, r, delta := d.timer, Tick(d, now, today).timer, TickDelta(now, d.timer.lastTick);
      && (r.running <==> t.timeLeft > delta as real)
      && (r.running ==> r.timeLeft == t.timeLeft - delta as real && r.lastTick == Some(now))
      && (!r.running ==> r.timeLeft == SafeMinutes(t.minutes) * 60.0 && r.lastTick == None)
      && r.mode == t.mode && r.minutes == t.minutes && r.editing == t.editing
    ensures Valid(d.timer) ==> Valid(Tick(d, now, today).timer)
  {
  }

  /** A tick that completes a focus session counts one more session today and changes no
      other day's count; any other tick leaves the counter as it was. */
  lemma TickSessions(d: Dashboard, now: int, today: Day)
    requires d.timer.running
    ensures var t, r, delta := d.timer, Tick(d, now, today).sessions, TickDelta(now, d.timer.lastTick);
      if t.mode == Focus && t.timeLeft <= delta as real then
        && SessionsOn(r, FormatDate(today)) == SessionsOn(d.sessions, FormatDate(today)) + 1.0
        && (forall k :: k != FormatDate(today) ==> SessionsOn(r, k) == SessionsOn(d.sessions, k))
      else r == d.sessions
  {
  }

  /** Read by day, a tick in focus mode adds the elapsed seconds, as minutes, to today
      and leaves every other day as it was; outside focus mode no day changes. */
  lemma TickStudyMinutes(d: Dashboard, now: int, today: Day)
    requires d.timer.running
    ensures var r, delta := Tick(d, now, today), TickDelta(now, d.timer.lastTick);
      && MinutesOn(r.ledger, today) == MinutesOn(d.ledger, today) + (if d.timer.mode == Focus then delta as real / 60.0 else 0.0)
      && (forall e :: e != today ==> MinutesOn(r.ledger, e) == MinutesOn(d.ledger, e))
  {
    BankDays(d.ledger, today, TickDelta(now, d.timer.lastTick));
  }

  /** 7.5 seconds since the last tick take 7 seconds off. */
  lemma SevenSecondTick(d: Dashboard, today: Day)
    requires d.timer.running && d.timer.lastTick == Some(1000) && d.timer.timeLeft == 100.0
    ensures Tick(d, 8500, today).timer.timeLeft == 93.0
    ensures Tick(d, 8500, today).timer.running
  {
    assert TickDelta(8500, Some(1000)) == 7;
    TickTimer(d, 8500, today);
  }

  /** A 5-minute focus session whose last second ticks away stops, refills 300 seconds
      and counts one more session today. */
  lemma FocusSessionCompletes(d: Dashboard, today: Day)
    requires d.timer == TimerState(Focus, 5.0, 1.0, true, false, Some(0))
    ensures var r := Tick(d, 1000, today);
      && !r.timer.running && r.timer.timeLeft == 300.0
      && SessionsOn(r.sessions, FormatDate(today)) == SessionsOn(d.sessions, FormatDate(today)) + 1.0
  {
    assert TickDelta(1000, Some(0)) == 1;
    TickTimer(d, 1000, today);
    TickSessions(d, 1000, today);
  }

  /** A completing focus tick still banks the whole delta: ten seconds elapsed with three
      left add ten seconds of study time, not three. */
  lemma CompletingTickBanksWholeDelta(d: Dashboard, today: Day)
    requires d.timer.running && d.timer.mode == Focus
    requires d.timer.lastTick == Some(0) && d.timer.timeLeft == 3.0
    ensures var r := Tick(d, 10000, today);
      && !r.timer.running
      && MinutesOn(r.ledger, today) == MinutesOn(d.ledger, today) + 10.0 / 60.0
  {
    assert TickDelta(10000, Some(0)) == 10;
    TickTimer(d, 10000, today);
    TickStudyMinutes(d, 10000, today);
  }

  /** The user actions and the clock tick the dashboard reacts to. */
  datatype Action =
    | StartPause(now: int)
    | ResetTimer
    | ChooseMode(mode: Mode)
    | EditDuration
    | CancelDuration
    | CommitDuration(parsed: Num)
    | TickAt(now: int, today: Day)

  /** The effect of one action. A tick reaches the state only while the timer runs
      (the interval is cleared otherwise); the buttons never touch the ledger or the
      session counter. */
  function Step(d: Dashboard, a: Action): (r: Dashboard)
    ensures !a.TickAt? ==> r.ledger == d.ledger && r.sessions == d.sessions
    ensures a.TickAt? && !d.timer.running ==> r == d
  {
    match a
    case StartPause(now) => d.(timer := ToggleRunning(d.timer, now))
    case ResetTimer => d.(timer := Reset(d.timer))
    case ChooseMode(m) => d.(timer := SwitchMode(d.timer, m))
    case EditDuration => d.(timer := BeginEdit(d.timer))
    case CancelDuration => d.(timer := CancelEdit(d.timer))
    case CommitDuration(parsed) => d.(timer := CommitEdit(d.timer, parsed))
    case TickAt(now, today) => if d.timer.running then Tick(d, now, today) else d
  }

  /** The state reached after a sequence of actions. */
  function Run(d: Dashboard, actions: seq<Action>): Dashboard
    decreases |actions|
  {
    if actions == [] then d else Run(Step(d, actions[0]), actions[1..])
  }

  /** One step keeps the timer valid and never lowers any day's study minutes or
      session count. */
  lemma StepPreserves(d: Dashboard, a: Action)
    requires Valid(d.timer)
    ensures Valid(Step(d, a).timer)
    ensures forall e :: MinutesOn(d.ledger, e) <= MinutesOn(Step(d, a).ledger, e)
    ensures forall k :: SessionsOn(d.sessions, k) <= SessionsOn(Step(d, a).sessions, k)
  {
    if a.TickAt? && d.timer.running {
      TickPreserves(d, a.now, a.today);
    }
  }

  /** A tick keeps the timer valid and never lowers any day's study minutes or session count. */
  lemma TickPreserves(d: Dashboard, now: int, today: Day)
    requires Valid(d.timer) && d.timer.running
    ensures Valid(Tick(d, now, today).timer)
    ensures forall e :: MinutesOn(d.ledger, e) <= MinutesOn(Tick(d, now, today).ledger, e)
    ensures forall k :: SessionsOn(d.sessions, k) <= SessionsOn(Tick(d, now, today).sessions, k)
  {
    TickTimer(d, now, today);
    TickSessions(d, now, today);
    TickStudyMinutes(d, now, today);
  }

  /** From the initial state, whatever happens, the timer stays valid, and study
      minutes and session counts only grow. */
  lemma {:induction false} RunPreserves(d: Dashboard, actions: seq<Action>)
    requires Valid(d.timer)
    ensures Valid(Run(d, actions).timer)
    ensures forall e :: MinutesOn(d.ledger, e) <= MinutesOn(Run(d, actions).ledger, e)
    ensures forall k :: SessionsOn(d.sessions, k) <= SessionsOn(Run(d, actions).sessions, k)
    decreases |actions|
  {
    if actions != [] {
      var next := Step(d, actions[0]);
      StepPreserves(d, actions[0]);
      RunPreserves(next, actions[1..]);
    }
  }
}

=== FILE: tips.dfy ===
/** The study tips page: the fixed list of tips, the tag list offered in the
    selector (every tag once, sorted), and the tips shown for a selected tag and
    a search text. `toLowerCase` is a parameter. */
module Tips {
  import opened Seqs
  import opened Text

  datatype Section = Methods | NoteTaking | Organisation

  datatype Tip = Tip(id: int, text: string, tags: seq<string>, section: Section)

  /** `TIPS`. */
  const AllTips: seq<Tip> := [
    Tip(1, "Évite la simple relecture; privilégie le rappel actif.", ["mémoire", "science"], Methods),
    Tip(2, "Planifie des blocs courts + pauses (Pomodoro).", ["temps", "pomodoro"], Organisation),
    Tip(3, "Cornell notes pour structurer cours et révisions.", ["notes"], NoteTaking),
    Tip(4, "Teste plusieurs stratégies; ajuste si ça n’aide pas.", ["méta-apprentissage"], Methods)
  ]

  /** `tips.flatMap(t => t.tags)`. */
  function AllTagsOf(tips: seq<Tip>): (r: seq<string>)
    ensures forall x :: x in r <==> exists i :: 0 <= i < |tips| && x in tips[i].tags
  {
    if tips == [] then []
    else
      var rest := AllTagsOf(tips[1..]);
      assert forall i :: 1 <= i < |tips| ==> tips[i] == tips[1..][i - 1];
      tips[0].tags + rest
  }

  /** Every element strictly below the next: sorted with no duplicates. */
  predicate StrictlySorted(s: seq<string>)
  {
    forall i, j :: 0 <= i < j < |s| ==> LexLess(s[i], s[j])
  }

  lemma LexLessTransitive(a: string, b: string, c: string)
    requires LexLess(a, b) && LexLess(b, c)
    ensures LexLess(a, c)
  {
    LexLeTransitive(a, b, c);
    if a == c {
      LexLeAntisymmetric(a, b);
    }
  }

  lemma LexLessTotal(a: string, b: string)
    requires a != b
    ensures LexLess(a, b) || LexLess(b, a)
  {
    LexLeTotal(a, b);
  }

  /** Adds `x` to a strictly sorted list unless it is already there. */
  function InsertUnique(x: string, s: seq<string>): (r: seq<string>)
    ensures forall y :: y in r <==> y == x || y in s
  {
    if s == [] then [x]
    else if x == s[0] then s
    else if LexLess(x, s[0]) then [x] + s
    else [s[0]] + InsertUnique(x, s[1..])
  }

  lemma {:induction false} InsertUniqueSorted(x: string, s: seq<string>)
    requires StrictlySorted(s)
    ensures StrictlySorted(InsertUnique(x, s))
  {
    if s == [] {
    } else if x == s[0] {
    } else if LexLess(x, s[0]) {
      var r := [x] + s;
      forall i, j | 0 <= i < j < |r|
        ensures LexLess(r[i], r[j])
      {
        if i == 0 && j > 1 {
          LexLessTransitive(x, s[0], s[j - 1]);
        }
      }
    } else {
      LexLessTotal(x, s[0]);
      var tail := InsertUnique(x, s[1..]);
      InsertUniqueSorted(x, s[1..]);
      forall k | 0 <= k < |tail|
        ensures LexLess(s[0], tail[k])
      {
        assert tail[k] in tail;
        if tail[k] != x {
          var m :| 0 <= m < |s[1..]| && s[1..][m] == tail[k];
          assert s[m + 1] == tail[k];
        }
      }
      var r := [s[0]] + tail;
      forall i, j | 0 <= i < j < |r|
        ensures LexLess(r[i], r[j])
      {
        if i == 0 {
          assert r[j] == tail[j - 1];
        } else {
          assert r[i] == tail[i - 1] && r[j] == tail[j - 1];
        }
      }
    }
  }

  /** `Array.from(new Set(xs)).sort()`: each element once, in ascending order. */
  function SortedUnique(xs: seq<string>): (r: seq<string>)
    ensures forall y :: y in r <==> y in xs
    ensures StrictlySorted(r)
  {
    if xs == [] then []
    else
      var rest := SortedUnique(xs[1..]);
      InsertUniqueSorted(xs[0], rest);
      assert forall y :: y in xs <==> y == xs[0] || y in xs[1..] by {
        assert xs == [xs[0]] + xs[1..];
      }
      InsertUnique(xs[0], rest)
  }

  /** The tag selector's options: every tag of some tip, once each, sorted ascending. */
  function Tags(tips: seq<Tip>): (r: seq<string>)
    ensures forall x :: x in r <==> exists i :: 0 <= i < |tips| && x in tips[i].tags
    ensures forall i, j :: 0 <= i < j < |r| ==> LexLess(r[i], r[j])
    ensures forall i, j :: 0 <= i < |r| && 0 <= j < |r| && r[i] == r[j] ==> i == j
  {
    SortedUnique(AllTagsOf(tips))
  }

  /** Strictly sorted lists with the same elements are equal: the tag list is the only
      list with those properties. */
  lemma {:induction false} StrictlySortedUnique(a: seq<string>, b: seq<string>)
    requires StrictlySorted(a) && StrictlySorted(b)
    requires forall x :: x in a <==> x in b
    ensures a == b
  {
    if a != [] && b != [] {
      assert a[0] in b && b[0] in a;
      if a[0] != b[0] {
        var i :| 0 <= i < |b| && b[i] == a[0];
        var j :| 0 <= j < |a| && a[j] == b[0];
        assert LexLess(b[0], a[0]) by {
          assert i != 0;
        }
        assert LexLess(a[0], b[0]) by {
          assert j != 0;
        }
        LexLeAntisymmetric(a[0], b[0]);
      }
      forall x
        ensures x in a[1..] <==> x in b[1..]
      {
        if x in a[1..] {
          var k :| 1 <= k < |a| && a[k] == x;
          assert LexLess(a[0], x);
          assert x in b;
        }
        if x in b[1..] {
          var k :| 1 <= k < |b| && b[k] == x;
          assert LexLess(b[0], x);
          assert x in a;
        }
      }
      StrictlySortedUnique(a[1..], b[1..]);
      assert a == [a[0]] + a[1..] && b == [b[0]] + b[1..];
    } else {
      HeadIn(a);
      HeadIn(b);
    }
  }

  lemma HeadIn(s: seq<string>)
    ensures s != [] ==> s[0] in s
  {
  }

  /** The tags of the page's tips, in the order the selector lists them. */
  const PageTags: seq<string> := ["mémoire", "méta-apprentissage", "notes", "pomodoro", "science", "temps"]

  lemma PageTagsSorted()
    ensures StrictlySorted(PageTags)
  {
    assert LexLess(PageTags[0], PageTags[1]);
    assert LexLess(PageTags[1], PageTags[2]);
    assert LexLess(PageTags[2], PageTags[3]);
    assert LexLess(PageTags[3], PageTags[4]);
    assert LexLess(PageTags[4], PageTags[5]);
    forall i, j | 0 <= i < j < |PageTags|
      ensures LexLess(PageTags[i], PageTags[j])
    {
      if j > i + 1 {
        ChainLess(PageTags, i, j);
      }
    }
  }

  /** The tips carry exactly the page's tags. */
  lemma AllTipsCarryPageTags()
    ensures forall x :: x in AllTagsOf(AllTips) <==> x in PageTags
  {
    assert AllTagsOf(AllTips[3..]) == ["méta-apprentissage"];
    assert AllTagsOf(AllTips[2..]) == ["notes", "méta-apprentissage"];
    assert AllTagsOf(AllTips[1..]) == ["temps", "pomodoro", "notes", "méta-apprentissage"];
    assert AllTagsOf(AllTips) == ["mémoire", "science", "temps", "pomodoro", "notes", "méta-apprentissage"];
  }

  /** The selector of the page offers these six tags, in this order. */
  lemma TagsOfAllTips()
    ensures Tags(AllTips) == PageTags
  {
    PageTagsSorted();
    AllTipsCarryPageTags();
    StrictlySortedUnique(Tags(AllTips), PageTags);
  }

  /** Neighbours in order give every pair in order. */
  lemma {:induction false} ChainLess(s: seq<string>, i: nat, j: nat)
    requires forall k :: 0 <= k < |s| - 1 ==> LexLess(s[k], s[k + 1])
    requires i < j < |s|
    ensures LexLess(s[i], s[j])
    decreases j - i
  {
    if j > i + 1 {
      ChainLess(s, i, j - 1);
      LexLessTransitive(s[i], s[j - 1], s[j]);
    }
  }

  /** The filter's test: a tip matches when no tag is chosen or it carries the tag,
      and the query is empty or its lowercased form occurs in the tip's lowercased text. */
  predicate Matches(t: Tip, tag: string, query: string, lower: string -> string)
  {
    && (tag == "" || tag in t.tags)
    && (query == "" || Contains(lower(t.text), lower(query)))
  }

  /** `visible`: the tips that match, in their order. */
  function Visible(tips: seq<Tip>, tag: string, query: string, lower: string -> string): (r: seq<Tip>)
    ensures forall t :: t in r <==> t in tips && Matches(t, tag, query, lower)
    ensures IsSubsequence(r, tips)
  {
    var keep := (t: Tip) => Matches(t, tag, query, lower);
    FilterSubsequence(keep, tips);
    Filter(keep, tips)
  }

  /** After "Réinitialiser" (no tag, empty query) every tip is shown, in order. */
  lemma ResetShowsAll(tips: seq<Tip>, lower: string -> string)
    ensures Visible(tips, "", "", lower) == tips
  {
    FilterAll((t: Tip) => Matches(t, "", "", lower), tips);
  }

  /** Selecting a tag without a query shows exactly the tips carrying it. */
  lemma TagOnly(tips: seq<Tip>, tag: string, lower: string -> string)
    ensures forall t :: t in Visible(tips, tag, "", lower) <==> t in tips && (tag == "" || tag in t.tags)
  {
  }

  /** Narrowing: adding a tag to an empty-tag search never shows more tips. */
  lemma TagNarrows(tips: seq<Tip>, tag: string, query: string, lower: string -> string)
    ensures forall t :: t in Visible(tips, tag, query, lower) ==> t in Visible(tips, "", query, lower)
  {
  }
}

=== FILE: weekarray.dfy ===
/** Today's week as the dashboard's JavaScript array holds it, cell by cell: a
    number, a hole (an index never written), or `undefined` (a hole copied by a
    spread). A stored week shorter than today's index makes the tick write past
    its end; the next tick's spread turns the holes into `undefined`, and the week
    total, a `reduce` that adds every element, becomes NaN. `Ledger` keeps only
    numbers and counts a missing cell as 0 everywhere, the week total included. */
module WeekArray {
  import opened JsValue
  import opened Dates
  import opened Ledger

  datatype Slot = Number(v: real) | Hole | Undefined

  type JsArray = seq<Slot>

  /** A week of numbers as an array. */
  function FromWeek(w: Week): (a: JsArray)
    ensures |a| == |w|
    ensures forall i :: 0 <= i < |a| ==> a[i] == Number(w[i])
  {
    seq(|w|, i requires 0 <= i < |w| => Number(w[i]))
  }

  /** `[...a]`: the copy holds an own `undefined` where `a` has a hole. */
  function Spread(a: JsArray): (r: JsArray)
    ensures |r| == |a|
    ensures forall i :: 0 <= i < |a| ==> r[i] == if a[i].Hole? then Undefined else a[i]
  {
    seq(|a|, i requires 0 <= i < |a| => if a[i].Hole? then Undefined else a[i])
  }

  /** `a[i] ?? 0`, and likewise the `typeof` test of `getMinutesForDate`: anything
      that is not a number reads as 0. */
  function ReadOrZero(a: JsArray, i: nat): real
  {
    if i < |a| && a[i].Number? then a[i].v else 0.0
  }

  /** The day-by-day reading of an array. */
  function Readings(a: JsArray): (w: Week)
    ensures |w| == |a|
    ensures forall i :: 0 <= i < |a| ==> w[i] == ReadOrZero(a, i)
  {
    seq(|a|, i requires 0 <= i < |a| => ReadOrZero(a, i))
  }

  /** `a[i] = v`: a write past the end leaves holes between the old end and `i`. */
  function Store(a: JsArray, i: nat, v: real): (r: JsArray)
    ensures |r| == if i < |a| then |a| else i + 1
    ensures r[i] == Number(v)
    ensures forall j :: 0 <= j < |a| && j != i ==> r[j] == a[j]
    ensures forall j :: |a| <= j < i ==> r[j] == Hole
  {
    if i < |a| then a[i := Number(v)] else a + seq(i - |a|, _ => Hole) + [Number(v)]
  }

  /** The tick's update of today's week: spread the stored array, then add `x` to
      cell `idx` read with `?? 0`. */
  function BankWeek(a: JsArray, idx: nat, x: real): JsArray
  {
    var w := Spread(a);
    Store(w, idx, ReadOrZero(w, idx) + x)
  }

  /** `a.reduce((sum, n) => sum + n, 0)`: a hole is skipped, `undefined` makes the sum
      NaN, and NaN absorbs every later addition. With no infinite cells the order of
      the additions does not change the result, so the sum is taken from the front. */
  function Reduce(a: JsArray): Num
  {
    if a == [] then Finite(0.0)
    else
      var rest := Reduce(a[1..]);
      match a[0]
      case Undefined => NaN
      case Hole => rest
      case Number(v) => if rest.Finite? then Finite(v + rest.r) else rest
  }

  /** The total is NaN exactly when some element is `undefined`; otherwise it is the
      sum of the day-by-day readings. */
  lemma {:induction false} ReduceMeaning(a: JsArray)
    ensures Reduce(a) == NaN <==> exists i :: 0 <= i < |a| && a[i].Undefined?
    ensures Reduce(a) != NaN ==> Reduce(a) == Finite(Sum(Readings(a)))
  {
    if a != [] {
      ReduceMeaning(a[1..]);
      assert Readings(a)[1..] == Readings(a[1..]);
      if exists i :: 0 <= i < |a[1..]| && a[1..][i].Undefined? {
        var i :| 0 <= i < |a[1..]| && a[1..][i].Undefined?;
        assert a[i + 1].Undefined?;
      }
      if exists i :: 0 <= i < |a| && a[i].Undefined? {
        var i :| 0 <= i < |a| && a[i].Undefined?;
        if i > 0 {
          assert a[1..][i - 1].Undefined?;
        }
      }
    }
  }

  /** Read by day, the update adds `x` to cell `idx` and changes no other day, whatever
      the stored array holds: the per-day reads agree with `Ledger.BankDays`. */
  lemma BankWeekReads(a: JsArray, idx: nat, x: real, i: nat)
    ensures ReadOrZero(BankWeek(a, idx, x), i) == ReadOrZero(a, i) + (if i == idx then x else 0.0)
  {
  }

  /** On a week of numbers that reaches cell `idx`, such as every week the dashboard
      creates, the update is the ledger's `SetCell` and the total is the ledger's sum. */
  lemma BankWeekAgrees(w: Week, idx: nat, x: real)
    requires idx < |w|
    ensures BankWeek(FromWeek(w), idx, x) == FromWeek(SetCell(w, idx, Cell(w, idx) + x))
    ensures Reduce(FromWeek(SetCell(w, idx, Cell(w, idx) + x))) == Finite(Sum(SetCell(w, idx, Cell(w, idx) + x)))
  {
    assert Spread(FromWeek(w)) == FromWeek(w);
    var u := SetCell(w, idx, Cell(w, idx) + x);
    ReduceMeaning(FromWeek(u));
    assert Readings(FromWeek(u)) == u;
  }

  /** A stored empty week and two ticks on a day after Monday: the first write leaves
      holes before cell `idx`, the second tick's spread turns them into `undefined`, and
      the week total is NaN although the days read `x + y` in all. */
  lemma ShortWeekTotalIsNaN(idx: nat, x: real, y: real)
    requires idx >= 1
    ensures Reduce(BankWeek(BankWeek([], idx, x), idx, y)) == NaN
    ensures Sum(Readings(BankWeek(BankWeek([], idx, x), idx, y))) == x + y
  {
    var once := BankWeek([], idx, x);
    var twice := BankWeek(once, idx, y);
    assert once[0] == Hole;
    assert twice[0] == Undefined;
    ReduceMeaning(twice);
    var r := Readings(twice);
    assert r == seq(idx, _ => 0.0) + [x + y];
    SumAppend(seq(idx, _ => 0.0), [x + y]);
    SumZeros(idx);
    assert Sum([x + y]) == x + y + Sum([]);
  }

  /** The same stored week in the ledger model: two one-minute focus ticks give a week
      total of two minutes, on every day of the week. */
  lemma ShortWeekTotalCorrected(today: Day)
    ensures WeekTotal(Bank(Bank(map[WeekKey(today) := []], today, 60), today, 60), WeekKey(today)) == 2.0
  {
    var once := Bank(map[WeekKey(today) := []], today, 60);
    assert WeekTotal(once, WeekKey(today)) == 1.0;
  }
}
